=== FILE: README.md ===
# ColibriNANO spectrum pipeline in Dafny

This project models the signal path of the ColibriNANO receiver application.
IQ samples arrive through a receive callback. They are written into a
power-of-two ring buffer (`SDR::SpectrumRingBuffer`). A timer tick in the
engine (`DspCore`) drains the latest full block of 4096 samples, applies a
Blackman-Harris window (`Window`), and runs an in-place radix-2 transform
(`fft`): decimation-in-frequency butterflies followed by a bit-reversal
reordering. The tick then rotates the result by half a block so that zero
frequency sits in the middle, and turns every bin into the level
`5 ln(re² + im²)`. The GUI copies that snapshot out with `getSpectrum`.

The model covers the integer and index logic exactly, within the size limits
listed under "Left out". This includes:

- the 32-bit bit-smearing round-up to a power of two;
- the mask-based ring cursor, the saturating sample count and the drain gate;
- the butterfly index pattern and the twiddle per lane;
- the bit-reversal swap loop;
- the half-block rotation;
- the size guards of every operation;
- the engine's open/close and overload-notification logic.

Floating-point values are exact reals (`Common.Real`). Three primitives are
parameters rather than definitions:

- `cos`/`sin`, as the root of unity of each order (`Fft.RootOf`);
- the window coefficient formula (`Window.CoeffOf`);
- `log` (`DspCore.Numerics.ln`).

Modules, one file each:

| file | module | source |
|---|---|---|
| pow2.dfy | `Powers` | powers of two; `powToNext`/`pow2Next` on 32-bit words |
| modular.dfy | `Modular` | modular facts for ring slots and butterfly spans |
| common.dfy | `Common` | `Complex`, `Real`, `vector::resize` |
| ringbuffer.dfy | `RingBuffer` | `dsp/spectrumringbuffer.h` |
| bitreversal.dfy | `BitReversal` | the reordering loop of `fft::forward`/`backward` |
| butterfly.dfy | `Butterfly` | one butterfly stage of `fft::forward`/`backward` |
| fft.dfy | `Fft` | `dsp/fft.h` |
| window.dfy | `Window` | `dsp/window.h` |
| dspcore.dfy | `DspCore` | `dsp/DspCore.cpp`, `dsp/DspCore.h` |

The state of a C++ object is a datatype, and every member function is a
function from the old state to the new one. `DspCore.Valid` is the engine's
invariant: `DspCore.New` establishes it, and every operation keeps it, so
operations that require it exclude no reachable state. A boolean result is returned
alongside the new state, in `Written`, `Drained`, `Resized`, `Processed`,
`Configured` and `Received`. The effects of threads and Qt signals become
state:

- `starts`/`stops` count how often the worker loop was started and stopped;
- `events` logs every emitted `readyRead` and `adcOverloadChanged`.

Behaviours of the code worth knowing:

- `resize` on the ring buffer drops the sample count, but keeps the write
  cursor and the drain gate. It does not reset the cursors.
- A tick whose drain fails does not reprocess the last drained samples.
  `m_signal` was overwritten in place by the previous tick, so the tick
  windows and transforms its own previous (rotated, scaled) output again
  (`DspCore.StaleTickReprocesses`).
- `Window::setParam(n)` does not round n to a power of two: the table has
  exactly n entries.
- `readAll` clears the gate but leaves the count saturated. While the count
  stays saturated, any later write re-opens the gate, even one of a single
  sample or none (`RingBuffer.SaturatedWriteRearms`). A write opens the gate
  once the count reaches size after the last `clear` or the last
  `resize(t)` with t different from the current size (even one that rounds
  back to the same size), not after the last drain.
- A `resize(t)` with t different from the current size, even one that
  rounds back to the same size, zeroes the count but leaves the gate as it was.
  A gate that was open stays open, so a drain can succeed with no sample
  written since the resize. The next write sets the gate from the count
  again, so it closes until the count reaches the size (`RingBuffer.Resize`, `RingBuffer.GateOpensWhenFull`).

## Model

| member | source | states |
|---|---|---|
| Powers.PowToNext | example_src/source/dsp/fft.h:21-31 | On a 32-bit word the decrement/smear/increment returns 0 for 0 and for every d above 2^31, and otherwise the power of two r with r/2 < d <= r. |
| Powers.Smeared | example_src/source/dsp/fft.h:24-28 | The five shift-or steps turn a word into all ones up to and including its highest set bit: the result plus one is the power of two just above the word. |
| Powers.SmearSetsEverythingBelowTop | example_src/source/dsp/fft.h:24-28 | After the cascade, bit i is set exactly when some bit at or above i was set in the input. |
| Powers.ShrOrDoublesWindow | example_src/source/dsp/fft.h:24-28 | Each shift-or step by s doubles the width of the window of bits that is or-ed into each position. |
| Powers.SmearValue | example_src/source/dsp/fft.h:24-28 | The smeared word's value is 2^n - 1, where n is the bit length of the input. |
| Powers.IncrementWraps | example_src/source/dsp/fft.h:23-29 | When d - 1 has bit 31 set (d = 0 or d > 2^31), `++d` wraps the all-ones word to 0. |
| Powers.IncrementRounds | example_src/source/dsp/fft.h:23-29 | For 1 <= d <= 2^31, `++d` yields a power of two r with r/2 < d <= r <= 2^31. |
| Powers.PowToNextIsNextPow2 | example_src/source/dsp/fft.h:21-31 | The bit trick agrees with an independent doubling definition of "smallest power of two at least d". |
| Powers.PowToNextIdentityOnPow2 | example_src/source/dsp/fft.h:21-31 | A power of two is returned unchanged. |
| Powers.PowToNextIdempotent | example_src/source/dsp/fft.h:21-31 | Rounding an already rounded value changes nothing. |
| Powers.RoundUpUnique | example_src/source/dsp/fft.h:21-31 | At most one power of two p satisfies p/2 < d <= p, so every round-up agrees. |
| Powers.NextPow2 | example_src/source/dsp/fft.h:21-31 | The reference round-up: a power of two r with r/2 < d <= r for every d >= 1. |
| RingBuffer.Pow2Next | example_src/source/dsp/spectrumringbuffer.h:110-120 | The signed-int round-up gives 0 for 0 and the power of two r with r/2 < d <= r for 0 < d <= 2^30, never exceeding 2^30. |
| RingBuffer.New | example_src/source/dsp/spectrumringbuffer.h:137-155 | The constructor rounds the size up (0 stays 0) and starts with cursor 0, count 0 and the gate closed. |
| RingBuffer.Resize | example_src/source/dsp/spectrumringbuffer.h:157-176 | The same size is a no-op. Otherwise the buffer is rounded, the old prefix kept and the rest zero-filled, the count dropped, and the cursor and gate kept. |
| RingBuffer.ResizeIdempotent | example_src/source/dsp/spectrumringbuffer.h:157-176 | A second resize with the same request leaves the state unchanged. |
| RingBuffer.Clear | example_src/source/dsp/spectrumringbuffer.h:184-200 | Cursor, count and gate are reset; size and contents are kept. |
| RingBuffer.Write | example_src/source/dsp/spectrumringbuffer.h:291-312 | A write fails exactly for an empty write into an empty buffer. On success: the cursor advances by len modulo size; the count becomes min(count + len, size); the gate opens iff the count reached size; each of the last size samples sits in its slot; other slots are untouched. |
| RingBuffer.Size | example_src/source/dsp/spectrumringbuffer.h:178-182 | `size()` is the length of the storage, which is 0 or a power of two. |
| RingBuffer.ReadyRead | example_src/source/dsp/spectrumringbuffer.h:210-214 | `readyRead()` is true exactly when a drain into a block of the buffer's size would succeed. |
| RingBuffer.ReadyWrite | example_src/source/dsp/spectrumringbuffer.h:216-220 | `readyWrite()` is true exactly when the buffer has storage, so that an empty write succeeds. |
| RingBuffer.ScatterLastWriterWins | example_src/source/dsp/spectrumringbuffer.h:300-301 | When a burst is longer than the buffer, the last writer of each slot wins. |
| RingBuffer.ScatterUntouched | example_src/source/dsp/spectrumringbuffer.h:300-301 | A slot no sample maps to keeps its old value. |
| RingBuffer.ScatterAppend | example_src/source/dsp/spectrumringbuffer.h:300-302 | Two bursts written one after the other land where their concatenation would. |
| RingBuffer.WriteAppend | example_src/source/dsp/spectrumringbuffer.h:291-312 | Two writes leave the same state as one write of both bursts. |
| RingBuffer.WriteAllIsOneWrite | example_src/source/dsp/spectrumringbuffer.h:291-312 | Any non-empty run of writes has the effect of a single write of everything. |
| RingBuffer.GateOpensWhenFull | example_src/source/dsp/spectrumringbuffer.h:305-308 | After a run of writes the gate is open iff the starting count plus the samples written reaches size; the count is their saturating sum. |
| RingBuffer.ClearedGateOpensAtSize | example_src/source/dsp/spectrumringbuffer.h:184-200 | After `clear()` the gate opens exactly once size samples have been written. |
| RingBuffer.ReadAll | example_src/source/dsp/spectrumringbuffer.h:245-266 | A drain succeeds iff len equals size and the gate is open. On failure nothing changes. On success the gate is closed, the count kept, and entry i is the slot i past the write cursor. |
| RingBuffer.WriteThenDrain | example_src/source/dsp/spectrumringbuffer.h:245-312 | Round trip: after writing at least size samples, a drain returns exactly the last size samples, oldest first. |
| RingBuffer.WritesThenDrain | example_src/source/dsp/spectrumringbuffer.h:245-312 | The same round trip for any run of writes totalling at least size samples. |
| RingBuffer.SaturatedWriteRearms | example_src/source/dsp/spectrumringbuffer.h:222-243 | A drain closes the gate but leaves a saturated count, so the next write of any length re-opens it. |
| Fft.New | example_src/source/dsp/fft.h:38-45 | The constructor rounds the size up to a power of two and establishes the table invariant. |
| Fft.SetSize | example_src/source/dsp/fft.h:47-59 | 0 is refused and the current size kept. The current size is accepted unchanged. Anything else is rounded up, with tables rebuilt. |
| Fft.SetSizeIdempotent | example_src/source/dsp/fft.h:47-59 | A second `setSize` with the same request changes nothing. |
| Fft.SetSizeExactOnPow2 | example_src/source/dsp/fft.h:47-59 | A request that is a power of two becomes the size exactly. |
| Fft.Size | example_src/source/dsp/fft.h:61-64 | `size()` is 2^m_logN, the number of points the logN stages cover. |
| Fft.Init | example_src/source/dsp/fft.h:90-102 | For a power-of-two size, `m_logN = log2(size)` and table entry j holds the root of order 2^(j+1). `m_k`, always 1/size, is derived from the size (`Fft.ScaleOf`). |
| Fft.InitTable | example_src/source/dsp/fft.h:94-101 | The table loop with a cursor that does not wrap runs exactly log2(size) times and fills entry j with the root of order 2^(j+1). |
| Fft.InitCursorValue | example_src/source/dsp/fft.h:97 | The cursor is 2^(j+1) for j < 31 and 0 from then on. |
| Fft.InitLoopStopsBelowMax | example_src/source/dsp/fft.h:97 | For power-of-two sizes below 2^31, the guard `i <= m_size` holds exactly for the first log2(size) iterations. |
| Fft.InitLoopNeverStopsAtMax | example_src/source/dsp/fft.h:97-101 | For size 2^31 the guard holds at every iteration, because the cursor wraps to 0 at iteration 31. |
| Fft.StageUsesRootOfItsSpan | example_src/source/dsp/fft.h:109-116 | Stage n works on spans of size/2^(n-1) and reads the table entry holding the root of exactly that order. |
| Fft.SpanShape | example_src/source/dsp/fft.h:110-136 | Every span of every stage cuts the block into whole spans of two halves. |
| Fft.RunTransform | example_src/source/dsp/fft.h:104-212 | The loops of `forward`/`backward` compute, in this order: the stages with the span halving, then the bit-reversal reordering. |
| Fft.Process | example_src/source/dsp/fft.h:66-84 | The transform is refused, with the block untouched, unless the block length is the size. The forward result is the transform scaled by 1/size; the backward one is the transform with conjugated roots. |
| Butterfly.ButterflyStage | example_src/source/dsp/fft.h:120-135 | Over one stage, every pair (i, i + ie/2) with i in the lower half of its span gets exactly one butterfly, with all indices inside the block. The lower element becomes the sum and the upper element the difference times the lane's twiddle power. |
| Butterfly.RunLane | example_src/source/dsp/fft.h:121-131 | The inner loop for lane j visits index j in every span and finishes exactly those pairs. |
| Butterfly.ButterflyStep | example_src/source/dsp/fft.h:122-130 | One butterfly finishes its pair, and its partner index lies inside the block. |
| Butterfly.DoneStep | example_src/source/dsp/fft.h:121 | Stepping i by ie adds exactly the pair (i, i + ie/2) to the finished set. |
| Butterfly.LowResidue | example_src/source/dsp/fft.h:120-122 | Every index is the lower or the upper element of exactly one pair, and its lane is that pair's residue. |
| Butterfly.VisitStep | example_src/source/dsp/fft.h:121-122 | Each visit records a new lower index, never one already visited. |
| Butterfly.AllLanes | example_src/source/dsp/fft.h:120-135 | When every lane has run, the block is the stage output and every lower index has been visited. |
| BitReversal.BitReverse | example_src/source/dsp/fft.h:139-156 | The swap loop yields the bit-reversal permutation of the block and keeps its multiset of elements. |
| BitReversal.NextReversed | example_src/source/dsp/fft.h:150-155 | The `while (k < j)` carry loop steps j - 1 from bitrev(i - 1) to bitrev(i), staying within 1..N. |
| BitReversal.BitrevStep | example_src/source/dsp/fft.h:150-155 | Adding one at the top of a reversed counter reverses adding one at the bottom. |
| BitReversal.BitrevInvolution | example_src/source/dsp/fft.h:139-149 | Reversing the bits twice gives back the index, so each pair is swapped once. |
| BitReversal.PermuteInvolution | example_src/source/dsp/fft.h:139-156 | Reordering twice restores the block. |
| BitReversal.SwapStep | example_src/source/dsp/fft.h:140-149 | Swapping positions m and bitrev(m) when m is the smaller extends the finished prefix by one index. |
| BitReversal.SwappedAll | example_src/source/dsp/fft.h:139 | The loop may stop before the last index, because N - 1 reverses to itself. |
| BitReversal.SwapPermutes | example_src/source/dsp/fft.h:143-148 | Each exchange keeps every element. |
| BitReversal.BitrevOnes | example_src/source/dsp/fft.h:150-154 | Only the all-ones index reverses to all ones, the only counter on which the carry loop would run off the end. |
| Window.SetParam | example_src/source/dsp/window.h:18-30 | 0 is refused with the table kept. Otherwise the table has exactly n entries and entry i is coefficient i of n. |
| Window.SetParamInPlace | example_src/source/dsp/window.h:23-27 | The resize-then-overwrite loop produces the same table as `SetParam`. |
| Window.SetParamForgetsOldTable | example_src/source/dsp/window.h:24-27 | After a successful `setParam` no trace of the previous table remains. |
| Window.Process | example_src/source/dsp/window.h:32-41 | A block whose length differs from the table's is left as it is. Otherwise both parts of every sample are multiplied by its coefficient. |
| Window.ProcessInPlace | example_src/source/dsp/window.h:37-40 | The element-by-element loop produces the same block as `Process`. |
| Window.UnconfiguredIsNoOp | example_src/source/dsp/window.h:16 | Before any `setParam`, every non-empty block passes through unchanged. |
| DspCore.SpectrumWindow | example_src/source/dsp/DspCore.cpp:13 | `setParam(SpectrumSize)` builds a 4096-entry table whose entry i is coefficient i of 4096. |
| DspCore.New | example_src/source/dsp/DspCore.cpp:9-17 | The constructor leaves transform, window and ring all of size 4096 (the 16-point default transform included). The engine is closed, the overload flag false, no signal emitted, the gate closed, and signal and spectrum zero-filled. |
| DspCore.SpectrumFft | example_src/source/dsp/DspCore.cpp:12 | `setSize(4096)` on the default transform gives a valid 4096-point transform with 12 stages. |
| DspCore.SpectrumRing | example_src/source/dsp/DspCore.cpp:14 | `resize(4096)` on the default empty ring gives a valid ring of exactly 4096 with count 0 and the gate closed. |
| DspCore.Open | example_src/source/dsp/DspCore.cpp:24-31 | `open()` leaves the engine open and starts the worker loop only if it was closed. |
| DspCore.Close | example_src/source/dsp/DspCore.cpp:33-42 | `close()` leaves the engine closed and stops the worker loop only if it was open. |
| DspCore.OpenCloseIdempotent | example_src/source/dsp/DspCore.cpp:24-42 | Repeating `open()` or `close()` does nothing. |
| DspCore.OpenCloseKeepValid | example_src/source/dsp/DspCore.cpp:24-47 | Opening and closing keep the invariant "a worker loop runs exactly while open". |
| DspCore.ToggleAllBalanced | example_src/source/dsp/DspCore.cpp:24-47 | After any sequence of opens and closes, at most one worker loop runs, and the last request decides `isOpen()`. |
| DspCore.IsOpen | example_src/source/dsp/DspCore.cpp:44-47 | `isOpen()` is true exactly when more loops were started than stopped. |
| DspCore.Destroy | example_src/source/dsp/DspCore.cpp:19-22 | The destructor is `close()`. |
| DspCore.DestroyStopsEveryLoop | example_src/source/dsp/DspCore.cpp:19-22 | After destruction every started worker loop has been stopped. |
| DspCore.SetAdcOverload | example_src/source/dsp/DspCore.cpp:94-100 | The flag is recorded, and `adcOverloadChanged(state)` is emitted iff it changed; nothing else changes. |
| DspCore.FeedEmitsChanges | example_src/source/dsp/DspCore.cpp:94-100 | Over any run of flags, the emitted notifications are exactly those of a reference "one per change" definition, and the last flag is recorded. |
| DspCore.ChangesAlternate | example_src/source/dsp/DspCore.cpp:94-100 | Notifications alternate. The first differs from the flag before the run, and the last names the final flag. |
| DspCore.CallbackRx | example_src/source/dsp/DspCore.cpp:49-55 | The callback writes the samples into the ring, then records the flag, and returns true. |
| DspCore.QuietStartIsSilent | example_src/source/dsp/DspCore.cpp:49-55 | A fresh engine emits nothing on a callback that reports no overload. |
| DspCore.CallbackThenTick | example_src/source/dsp/DspCore.cpp:49-74 | After a callback delivering at least 4096 samples, the next tick works on exactly the last 4096 of them. |
| DspCore.TickInput | example_src/source/dsp/DspCore.cpp:70 | The block a tick works on is the drained ring when the gate is open, and the previous signal otherwise. |
| DspCore.StaleTickReprocesses | example_src/source/dsp/DspCore.cpp:70-73 | Without a full block the tick leaves the ring alone and transforms its own previous output. |
| DspCore.Rotate | example_src/source/dsp/DspCore.cpp:74 | `std::rotate` by h: entry i of the result is entry (i + h) mod N of the input. |
| DspCore.RotateHalfTwice | example_src/source/dsp/DspCore.cpp:74 | Rotating an even block by half twice restores it. |
| DspCore.Windowed | example_src/source/dsp/DspCore.cpp:72 | Windowing a 4096-sample block scales sample i by coefficient i of 4096. |
| DspCore.Levels | example_src/source/dsp/DspCore.cpp:78-79 | One level per bin: level i is 5 ln(re² + im²) of bin i, so the spectrum has as many bins as the block. |
| DspCore.LevelsCommuteWithRotate | example_src/source/dsp/DspCore.cpp:74-79 | Levels are computed bin by bin, so rotating before or after the conversion yields the same spectrum. |
| DspCore.Tick | example_src/source/dsp/DspCore.cpp:68-82 | A tick keeps all sizes and emits one `readyRead`. The gate is closed afterwards, every spectrum bin is the level of its signal bin, and nothing else changes. |
| DspCore.TickSignal | example_src/source/dsp/DspCore.cpp:70-74 | Bin i of the new signal is bin (i + 2048) mod 4096 of the transform of the windowed input, scaled by 1/4096. |
| DspCore.GetSpectrum | example_src/source/dsp/DspCore.cpp:84-92 | Whatever the caller's vector held, and whatever its length, it ends up equal to the spectrum. |

## Left out

- DspCore.Tick: a tick is not tied to the open state. The source only calls `process()` from the timer of the worker loop that `open()` starts (DspCore.cpp:57-66), so it never runs while closed. The model accepts a tick in any valid state, which covers every tick the source can make.
- Threads, `QThread`, the `QTimer` period of 50 ms, `QMutex`/`std::mutex` and the atomics: every operation is atomic here. `run()` (DspCore.cpp:57-66) is represented only by the start/stop counters.
- The singleton `instance()` and `pUserData`: the engine state is passed explicitly.
- Floating-point rounding: `Real` is exact. `cos`, `sin`, `log` and the Blackman-Harris formula are parameters. The transform is modelled as its butterfly network, without proving that it computes the discrete Fourier transform.
- `Window::setParam` for n = 1 divides by `sn = 0` and fills the table with NaN. The coefficient parameter stands for whatever the formula yields, so this case is not visible in the model.
- `m_logN = round(log10(size)/log10(2))` is taken as the exact log2 of the power-of-two size.
- `fft(0)` and `setSize(t)` for t > 2^31 make `m_size` 0, and `init()` then converts the logarithm of 0 to an integer. That is undefined behaviour.
- Fft.New: requires 1 <= t <= 2^31, because of that undefined behaviour. A request in (2^30, 2^31] rounds to 2^31. At that size the source's `init` loop never ends and writes past its table (see "Findings"). The model returns the transform that the corrected loop `Fft.InitTable` builds.
- Fft.SetSize: requires t <= 2^31, for the same reason. A request in (2^30, 2^31] likewise gets the corrected 2^31-point transform, where the source never returns.
- Fft.Init: for size 2^31 it states the 31-entry table of the corrected loop `Fft.InitTable`. The source's loop does not finish at that size (`Fft.InitLoopNeverStopsAtMax`).
- Fft.SetSizeIdempotent: at size 2^31 it holds only with the corrected table loop, as for Fft.SetSize.
- Fft.SetSizeExactOnPow2: at size 2^31 it holds only with the corrected table loop, as for Fft.SetSize.
- RingBuffer.Pow2Next: requests above 2^30 are excluded. For 2^30 < t <= 2^31, `pow2Next` overflows the signed `int`, which is undefined behaviour. The overflow is in `d++` after the smear reaches 2^31 - 1, or, for t = 2^31, already in `d--` on INT_MIN. For t > 2^31 the quint32-to-`int` conversion makes d negative, which is implementation-defined before C++20. The arithmetic-shift smear then gives -1, and `d++` gives 0, so the buffer ends up empty. That outcome is not modelled.
- RingBuffer.New: the same bound of 2^30 on the requested size, for the same reasons.
- RingBuffer.Resize: the same bound of 2^30 on the requested size, for the same reasons.
- RingBuffer.Write: writing samples into a buffer of size 0 indexes an empty vector, and a count `m_bytesForRead + len` past 2^32 wraps; both are excluded by the precondition.
- DspCore.CallbackRx: requires the same bound on the count as RingBuffer.Write.
- `SpectrumRingBuffer::fill` calls a `fill` member that `std::vector` does not have; the template member is never instantiated, so it is not modelled.
- `m_readPtr` (left unmasked after a drain) and `m_bytesForWrite` are written but never read, and are not part of the state.
- The `vector` overloads of `write` and `readAll` behave like the `(const T *, quint32)` overloads with len = the vector's size, and share one model each.
- The `m_size == 0` test in `fft::process` can only matter for size 0, which the preconditions above exclude.
- `MainWindow`, `main.cpp` and the receiver library loader are not part of this model.

## Findings

| source | as written | input that shows it | evidently intended | confidence | as-written member | corrected member |
|---|---|---|---|---|---|---|
| example_src/source/dsp/fft.h:97 | `for (uint32_t i = 2, j = 0; i <= m_size; i <<= 1, ++j)` with a 32-bit cursor | m_size = 2^31 (for example `setSize(0x80000000)`): i reaches 2^31, and `i <<= 1` wraps it to 0, so `i <= m_size` never fails. Iteration 31 writes `m_coeff[31]`, one past the 31-entry table, and the loop never ends. | The loop runs exactly log2(m_size) times, once per table entry. | not executed | Fft.InitLoopNeverStopsAtMax | Fft.InitTable |

=== FILE: bitreversal.dfy ===
/**
 * The reordering pass that ends `fft::forward` and `fft::backward`: after the
 * decimation-in-frequency stages the outputs sit in bit-reversed order, and a
 * swap loop driven by a "reversed counter" j puts them back.
 *
 * The source keeps 1-based i and j; J = j - 1 below is the 0-based reversed
 * counter. The inner `while (k < j) { j -= k; k >>= 1; } j += k` adds one to J
 * at its top bit and carries downwards, which is `RevInc`.
 */
module BitReversal {
  import opened Powers
  import opened Modular

  /** The b low bits of x, read in the opposite order. */
  function Bitrev(x: nat, b: nat): (r: nat)
    requires x < Pow2(b)
    ensures r < Pow2(b)
    decreases b
  {
    if b == 0 then 0 else (if x % 2 == 0 then 0 else Pow2(b - 1)) + Bitrev(x / 2, b - 1)
  }

  /**
   * Adding one to a reversed counter J whose top bit has weight k: clear the
   * leading ones from the top down, then set the first zero. The precondition
   * excludes the all-ones counter, on which the source loop would shift k to
   * 0 and never stop.
   */
  function RevInc(J: nat, k: nat): (r: nat)
    requires IsPow2(k) && J + 1 < 2 * k
    ensures r < 2 * k
    decreases k
  {
    if J >= k then RevInc(J - k, k / 2) else J + k
  }

  /** One carry step of the inner loop: the top bit of J is set, so it is cleared and k halves. */
  lemma RevIncCarry(J: nat, k: nat)
    requires IsPow2(k) && J + 1 < 2 * k && J >= k
    ensures k >= 2 && IsPow2(k / 2) && J - k + 1 < 2 * (k / 2)
    ensures RevInc(J, k) == RevInc(J - k, k / 2)
  {
  }

  /** The inner loop stops at the first clear bit and sets it. */
  lemma RevIncStop(J: nat, k: nat)
    requires IsPow2(k) && J < k
    ensures RevInc(J, k) == J + k
  {
  }

  /** Only the all-ones word reverses to all ones. */
  lemma {:induction false} BitrevOnes(x: nat, b: nat)
    requires x < Pow2(b)
    ensures Bitrev(x, b) == Pow2(b) - 1 <==> x == Pow2(b) - 1
    decreases b
  {
    if b > 0 {
      BitrevOnes(x / 2, b - 1);
    }
  }

  lemma {:induction false} BitrevZero(b: nat)
    ensures Bitrev(0, b) == 0
    decreases b
  {
    if b > 0 {
      BitrevZero(b - 1);
    }
  }

  /** The reversed counter steps from bitrev(x) to bitrev(x + 1). */
  lemma {:induction false} BitrevStep(x: nat, b: nat)
    requires b >= 1 && x + 1 < Pow2(b)
    ensures Bitrev(x, b) + 1 < 2 * Pow2(b - 1) && IsPow2(Pow2(b - 1))
    ensures Bitrev(x + 1, b) == RevInc(Bitrev(x, b), Pow2(b - 1))
    decreases b
  {
    BitrevOnes(x, b);
    Pow2IsPow2(b - 1);
    if x % 2 == 0 {
      StepWithoutCarry(x, b);
    } else {
      assert b >= 2;
      BitrevStep(x / 2, b - 1);
      StepWithCarry(x, b);
    }
  }

  /** An even x: bitrev(x) has a clear top bit, which the step sets. */
  lemma StepWithoutCarry(x: nat, b: nat)
    requires b >= 1 && x + 1 < Pow2(b) && x % 2 == 0
    requires IsPow2(Pow2(b - 1))
    ensures Bitrev(x, b) < Pow2(b - 1)
    ensures Bitrev(x + 1, b) == RevInc(Bitrev(x, b), Pow2(b - 1))
  {
    var k, J := Pow2(b - 1), Bitrev(x, b);
    assert J == Bitrev(x / 2, b - 1);
    assert (x + 1) % 2 == 1 && (x + 1) / 2 == x / 2;
    assert Bitrev(x + 1, b) == k + J;
    RevIncStop(J, k);
  }

  /** An odd x: the top bit of bitrev(x) is set, cleared, and the step carries on one bit lower. */
  lemma StepWithCarry(x: nat, b: nat)
    requires b >= 2 && x + 1 < Pow2(b) && x % 2 == 1
    requires IsPow2(Pow2(b - 1)) && Bitrev(x, b) + 1 < 2 * Pow2(b - 1)
    requires Bitrev(x / 2, b - 1) + 1 < 2 * Pow2(b - 2) && IsPow2(Pow2(b - 2))
    requires Bitrev(x / 2 + 1, b - 1) == RevInc(Bitrev(x / 2, b - 1), Pow2(b - 2))
    ensures Bitrev(x + 1, b) == RevInc(Bitrev(x, b), Pow2(b - 1))
  {
    var k, h, J := Pow2(b - 1), Pow2(b - 2), Bitrev(x, b);
    var z := Bitrev(x / 2, b - 1);
    assert J == k + z;
    assert (x + 1) % 2 == 0 && (x + 1) / 2 == x / 2 + 1;
    assert Bitrev(x + 1, b) == Bitrev(x / 2 + 1, b - 1);
    assert k == 2 * h;
    RevIncCarry(J, k);
    assert RevInc(J, k) == RevInc(J - k, h);
  }

  /** Arithmetic behind reading the top bit instead of the bottom one. */
  lemma HalveMod(x: nat, k: nat)
    requires k >= 1
    ensures (x % (2 * k)) % 2 == x % 2
    ensures (x % (2 * k)) / 2 == (x / 2) % k
    ensures (x / 2) / k == x / (2 * k)
  {
    var q, r := x / 2, x % 2;
    var a, c := q / k, q % k;
    assert x == (2 * k) * a + (2 * c + r);
    ModUnique(x, a, 2 * c + r, 2 * k);
    ModUnique(2 * c + r, c, r, 2);
  }

  /** The same reversal, peeling the top bit: it becomes the lowest bit of the result. */
  lemma {:induction false} BitrevTop(x: nat, b: nat)
    requires b >= 1 && x < Pow2(b)
    ensures x % Pow2(b - 1) < Pow2(b - 1)
    ensures Bitrev(x, b) == 2 * Bitrev(x % Pow2(b - 1), b - 1) + x / Pow2(b - 1)
    decreases b
  {
    if b == 1 {
      assert Pow2(0) == 1 && x < 2;
      assert Bitrev(x, b) == x % 2 + Bitrev(x / 2, 0);
    } else {
      var k, k' := Pow2(b - 1), Pow2(b - 2);
      assert k == 2 * k';
      var m := x % k;
      var lo := x % 2;
      BitrevTop(x / 2, b - 1);
      HalveMod(x, k');
      assert Bitrev(x / 2, b - 1) == 2 * Bitrev((x / 2) % k', b - 2) + (x / 2) / k';
      assert m % 2 == lo && m / 2 == (x / 2) % k' && (x / 2) / k' == x / k;
    }
  }

  /** Reversing twice gives back the index. */
  lemma {:induction false} BitrevInvolution(x: nat, b: nat)
    requires x < Pow2(b)
    ensures Bitrev(Bitrev(x, b), b) == x
    decreases b
  {
    if b > 0 {
      var k := Pow2(b - 1);
      var z := Bitrev(x / 2, b - 1);
      var y := Bitrev(x, b);
      assert y == k * (x % 2) + z by {
        if x % 2 == 1 {
          assert k * (x % 2) == k;
        }
      }
      BitrevTop(y, b);
      ModUnique(y, x % 2, z, k);
      BitrevInvolution(x / 2, b - 1);
    }
  }

  /** The sequence reordered so that position p holds the element at bitrev(p). */
  function Permute<T>(s: seq<T>, b: nat): (r: seq<T>)
    requires |s| == Pow2(b)
    ensures |r| == |s|
  {
    seq(|s|, p requires 0 <= p < |s| => s[Bitrev(p, b)])
  }

  /** Reordering twice restores the sequence. */
  lemma PermuteInvolution<T>(s: seq<T>, b: nat)
    requires |s| == Pow2(b)
    ensures Permute(Permute(s, b), b) == s
  {
    var t := Permute(Permute(s, b), b);
    forall p | 0 <= p < |s|
      ensures t[p] == s[p]
    {
      BitrevInvolution(p, b);
    }
  }

  /** The sequence with the elements at x and y exchanged. */
  function Swap<T>(s: seq<T>, x: nat, y: nat): (r: seq<T>)
    requires x < |s| && y < |s|
    ensures |r| == |s| && r[x] == s[y] && r[y] == s[x]
    ensures forall p :: 0 <= p < |s| && p != x && p != y ==> r[p] == s[p]
  {
    s[x := s[y]][y := s[x]]
  }

  /** An exchange keeps every element: the result is a permutation. */
  lemma SwapPermutes<T>(s: seq<T>, x: nat, y: nat)
    requires x < |s| && y < |s|
    ensures multiset(Swap(s, x, y)) == multiset(s)
  {
    var t := s[x := s[y]];
    assert multiset(t) == multiset(s) - multiset{s[x]} + multiset{s[y]};
    assert multiset(t[y := s[x]]) == multiset(t) - multiset{t[y]} + multiset{s[x]};
  }

  /**
   * What the swap loop has done before handling index m: every position whose
   * index or reversed index is below m holds its final element, the rest are
   * untouched.
   */
  ghost predicate SwappedBelow<T>(a: seq<T>, out: seq<T>, b: nat, m: nat)
    requires |a| == |out| == Pow2(b)
  {
    forall p :: 0 <= p < |a| ==>
      out[p] == (if p < m || Bitrev(p, b) < m then a[Bitrev(p, b)] else a[p])
  }

  /** Exchanging positions m and bitrev(m) when m is the smaller extends the invariant to m + 1. */
  lemma {:induction false} SwapStep<T>(a: seq<T>, out: seq<T>, b: nat, m: nat)
    requires |a| == |out| == Pow2(b) && m < |a|
    requires SwappedBelow(a, out, b, m)
    ensures var r := Bitrev(m, b);
      SwappedBelow(a, if m < r then Swap(out, m, r) else out, b, m + 1)
  {
    var r := Bitrev(m, b);
    var out' := if m < r then Swap(out, m, r) else out;
    BitrevInvolution(m, b);
    forall p | 0 <= p < |a|
      ensures out'[p] == (if p < m + 1 || Bitrev(p, b) < m + 1 then a[Bitrev(p, b)] else a[p])
    {
      BitrevInvolution(p, b);
    }
  }

  /**
   * The inner `k = nn; while (k < j) { j -= k; k >>= 1; } j += k;`: from
   * j - 1 == bitrev(i - 1) it reaches j - 1 == bitrev(i), never leaving 1..N.
   */
  method NextReversed(j: nat, i: nat, b: nat) returns (j': nat)
    requires 1 <= i < Pow2(b) && j >= 1 && j - 1 == Bitrev(i - 1, b)
    ensures 1 <= j' <= Pow2(b) && j' - 1 == Bitrev(i, b)
  {
    BitrevStep(i - 1, b);
    j' := j;
    var k := Pow2(b) / 2;
    while k < j'
      invariant IsPow2(k) && 1 <= j' < 2 * k
      invariant RevInc(j' - 1, k) == Bitrev(i, b)
      decreases k
    {
      RevIncCarry(j' - 1, k);
      j' := j' - k;
      k := k / 2;
    }
    RevIncStop(j' - 1, k);
    j' := j' + k;
  }

  /**
   * The loop of `forward`/`backward` from `for (j = i = 1; i < m_size; ++i)`:
   * swap positions i-1 and j-1 when i < j, then step j. Every swap keeps the
   * multiset, and the net effect is the bit-reversal permutation.
   */
  method BitReverse<T>(a: seq<T>, b: nat) returns (out: seq<T>)
    requires |a| == Pow2(b)
    ensures out == Permute(a, b)
    ensures multiset(out) == multiset(a)
  {
    var n := |a|;
    out := a;
    var i, j := 1, 1;
    BitrevZero(b);
    while i < n
      invariant 1 <= i <= n && |out| == n
      invariant 1 <= j <= n && j - 1 == Bitrev(i - 1, b)
      invariant multiset(out) == multiset(a)
      invariant SwappedBelow(a, out, b, i - 1)
    {
      var m, r := i - 1, j - 1;
      SwapStep(a, out, b, m);
      if i < j {
        SwapPermutes(out, m, r);
        out := Swap(out, m, r);
      }
      j := NextReversed(j, i, b);
      i := i + 1;
    }
    SwappedAll(a, out, b);
  }

  /** Once only the last index is left, the sequence is fully reordered: N - 1 reverses to itself. */
  lemma SwappedAll<T>(a: seq<T>, out: seq<T>, b: nat)
    requires |a| == |out| == Pow2(b)
    requires SwappedBelow(a, out, b, |a| - 1)
    ensures out == Permute(a, b)
  {
    var n := |a|;
    BitrevOnes(n - 1, b);
    forall p | 0 <= p < n
      ensures out[p] == a[Bitrev(p, b)]
    {
      if p == n - 1 {
        assert Bitrev(p, b) == p;
      }
    }
  }
}

=== FILE: butterfly.dfy ===
/**
 * The stage loops of the radix-2 decimation-in-frequency network shared by
 * `fft::forward` and `fft::backward`:
 *
 *   for (j = 0; j < in; ++j) {            // lane j of every span
 *     for (i = j; i < m_size; i += ie) {  // the span starting at i - j
 *       io = i + in; tp = a[i] + a[io]; tq = a[i] - a[io];
 *       a[io] = tq * u; a[i] = tp;
 *     }
 *     u = u * w;
 *   }
 *
 * with span `ie`, half span `in = ie / 2` and u starting at 1. The float
 * values are carried as exact complex numbers; what is proved is the index
 * structure and which inputs each output is made from.
 */
module Butterfly {
  import opened Common
  import opened Modular

  /** u after e lanes: the update `ru = ru*rw - iu*iw; iu = iu*rw + sr*iw` applied e times to 1. */
  function TwiddlePower(w: Complex, e: nat): Complex
  {
    if e == 0 then One else Mul(TwiddlePower(w, e - 1), w)
  }

  /** A span ie that cuts a block of len samples into whole spans of two halves. */
  predicate StageShape(len: nat, ie: nat)
  {
    ie >= 2 && ie % 2 == 0 && len % ie == 0
  }

  /** The lane of q: its offset in its span, less the half span for an upper element. */
  function Lane(q: nat, ie: nat): nat
    requires ie >= 2
  {
    var r := q % ie;
    if r < ie / 2 then r else r - ie / 2
  }

  /** The lower element of the pair that q belongs to. */
  function Low(q: nat, ie: nat): int
    requires ie >= 2
  {
    if q % ie < ie / 2 then q else q - ie / 2
  }

  /**
   * Output q of one stage: a lower element becomes the sum of its pair, an
   * upper element the difference (lower minus upper) times the lane's twiddle.
   */
  function StageAt(a: seq<Complex>, ie: nat, w: Complex, q: nat): Complex
    requires StageShape(|a|, ie) && q < |a|
  {
    var h := ie / 2;
    if q % ie < h then
      PartnerBelow(q, h, ie, |a|);
      Add(a[q], a[q + h])
    else
      ModAtMost(q, ie);
      Mul(Sub(a[q - h], a[q]), TwiddlePower(w, q % ie - h))
  }

  /** The whole block after one stage. */
  function StageOut(a: seq<Complex>, ie: nat, w: Complex): (b: seq<Complex>)
    requires StageShape(|a|, ie)
    ensures |b| == |a|
  {
    seq(|a|, q requires 0 <= q < |a| => StageAt(a, ie, w, q))
  }

  /** Before the iteration at index i of lane j, has the pair of q been through its butterfly? */
  ghost predicate Done(q: nat, ie: nat, j: nat, i: nat)
    requires ie >= 2
  {
    Lane(q, ie) < j || (Lane(q, ie) == j && Low(q, ie) < i)
  }

  /** The block so far: finished elements hold their stage output, the rest their input. */
  ghost predicate StagedUpTo(a: seq<Complex>, out: seq<Complex>, ie: nat, w: Complex, j: nat, i: nat)
    requires StageShape(|a|, ie) && |out| == |a|
  {
    forall q :: 0 <= q < |a| ==> out[q] == (if Done(q, ie, j, i) then StageAt(a, ie, w, q) else a[q])
  }

  /**
   * The lower indices visited so far: each a lower element of its span, each
   * once, and exactly the finished lower elements.
   */
  ghost predicate VisitedUpTo(pairs: seq<nat>, len: nat, ie: nat, j: nat, i: nat)
    requires StageShape(len, ie)
  {
    && (forall x :: 0 <= x < |pairs| ==>
          pairs[x] < len && pairs[x] % ie < ie / 2 && Done(pairs[x], ie, j, i))
    && (forall x, y :: 0 <= x < y < |pairs| ==> pairs[x] != pairs[y])
    && (forall q :: 0 <= q < len && q % ie < ie / 2 && Done(q, ie, j, i) ==> q in pairs)
  }

  /** A lower element and its partner share the lane; the pair's low index has the lane as remainder. */
  lemma LowResidue(q: nat, ie: nat)
    requires ie >= 2 && ie % 2 == 0
    ensures Low(q, ie) >= 0 && Low(q, ie) % ie == Lane(q, ie) && Low(q, ie) >= Lane(q, ie)
    ensures q == Low(q, ie) || q == Low(q, ie) + ie / 2
  {
    var h := ie / 2;
    ModAtMost(q, ie);
    if q % ie >= h {
      ShiftWithinSpan(q, -h, ie);
      ModAtMost(q - h, ie);
    }
  }

  /** One inner iteration at index i finishes exactly the pair (i, i + ie/2). */
  lemma DoneStep(q: nat, ie: nat, j: nat, i: nat)
    requires ie >= 2 && ie % 2 == 0 && j < ie / 2 && i % ie == j
    ensures Done(q, ie, j, i + ie) <==> Done(q, ie, j, i) || q == i || q == i + ie / 2
    ensures q == i || q == i + ie / 2 ==> !Done(q, ie, j, i) && Lane(q, ie) == j && Low(q, ie) == i
  {
    var h := ie / 2;
    ShiftWithinSpan(i, h, ie);
    LowResidue(q, ie);
    var l := Low(q, ie);
    if Lane(q, ie) == j && i <= l < i + ie {
      SameSlotWithinSpan(i, l, ie);
    }
  }

  /** After lane j has reached the end of the block, lane j is finished and lane j + 1 begins. */
  lemma DoneLane(q: nat, ie: nat, j: nat, i: nat, len: nat)
    requires ie >= 2 && ie % 2 == 0 && q < len <= i
    ensures Done(q, ie, j, i) <==> Done(q, ie, j + 1, j + 1)
  {
    LowResidue(q, ie);
  }

  /** The butterfly at index i extends the finished part of the block by its pair. */
  lemma ButterflyStep(a: seq<Complex>, out: seq<Complex>, ie: nat, w: Complex, j: nat, i: nat, u: Complex)
    requires StageShape(|a|, ie) && |out| == |a|
    requires j < ie / 2 && i < |a| && i % ie == j && u == TwiddlePower(w, j)
    requires StagedUpTo(a, out, ie, w, j, i)
    ensures i + ie / 2 < |a|
    ensures var io := i + ie / 2;
      StagedUpTo(a, out[io := Mul(Sub(out[i], out[io]), u)][i := Add(out[i], out[io])], ie, w, j, i + ie)
  {
    var h := ie / 2;
    PartnerBelow(i, h, ie, |a|);
    var io := i + h;
    var out' := out[io := Mul(Sub(out[i], out[io]), u)][i := Add(out[i], out[io])];
    DoneStep(i, ie, j, i);
    DoneStep(io, ie, j, i);
    ShiftWithinSpan(i, h, ie);
    assert out[i] == a[i] && out[io] == a[io];
    assert StageAt(a, ie, w, i) == out'[i];
    assert StageAt(a, ie, w, io) == out'[io];
    forall q | 0 <= q < |a|
      ensures out'[q] == (if Done(q, ie, j, i + ie) then StageAt(a, ie, w, q) else a[q])
    {
      DoneStep(q, ie, j, i);
    }
  }

  /** The visit of index i records it once. */
  lemma VisitStep(pairs: seq<nat>, len: nat, ie: nat, j: nat, i: nat)
    requires StageShape(len, ie) && j < ie / 2 && i < len && i % ie == j
    requires VisitedUpTo(pairs, len, ie, j, i)
    ensures VisitedUpTo(pairs + [i], len, ie, j, i + ie)
  {
    DoneStep(i, ie, j, i);
    var p := pairs + [i];
    forall x | 0 <= x < |p|
      ensures p[x] < len && p[x] % ie < ie / 2 && Done(p[x], ie, j, i + ie)
    {
      DoneStep(p[x], ie, j, i);
    }
    forall q | 0 <= q < len && q % ie < ie / 2 && Done(q, ie, j, i + ie)
      ensures q in p
    {
      DoneStep(q, ie, j, i);
      ShiftWithinSpan(i, ie / 2, ie);
    }
  }

  /** Moving from lane j (run to the end of the block) to lane j + 1 keeps both invariants. */
  lemma NextLane(a: seq<Complex>, out: seq<Complex>, pairs: seq<nat>, ie: nat, w: Complex, j: nat, i: nat)
    requires StageShape(|a|, ie) && |out| == |a| && i >= |a|
    requires StagedUpTo(a, out, ie, w, j, i) && VisitedUpTo(pairs, |a|, ie, j, i)
    ensures StagedUpTo(a, out, ie, w, j + 1, j + 1) && VisitedUpTo(pairs, |a|, ie, j + 1, j + 1)
  {
    forall q | 0 <= q < |a|
      ensures Done(q, ie, j, i) <==> Done(q, ie, j + 1, j + 1)
    {
      DoneLane(q, ie, j, i, |a|);
    }
  }

  /** When every lane is done, the block is the stage output and every lower index was visited. */
  lemma AllLanes(a: seq<Complex>, out: seq<Complex>, pairs: seq<nat>, ie: nat, w: Complex)
    requires StageShape(|a|, ie) && |out| == |a|
    requires StagedUpTo(a, out, ie, w, ie / 2, ie / 2) && VisitedUpTo(pairs, |a|, ie, ie / 2, ie / 2)
    ensures out == StageOut(a, ie, w)
    ensures forall x :: 0 <= x < |pairs| ==> pairs[x] % ie < ie / 2 && pairs[x] + ie / 2 < |a|
    ensures forall q :: 0 <= q < |a| && q % ie < ie / 2 ==> q in pairs
  {
    forall q | 0 <= q < |a|
      ensures Done(q, ie, ie / 2, ie / 2)
    {
    }
    forall x | 0 <= x < |pairs|
      ensures pairs[x] + ie / 2 < |a|
    {
      PartnerBelow(pairs[x], ie / 2, ie, |a|);
    }
  }

  /**
   * The inner loop for lane j: `for (i = j; i < m_size; i += ie)`, one
   * butterfly per span, all with the same twiddle u.
   */
  method RunLane(a: seq<Complex>, out0: seq<Complex>, pairs0: seq<nat>, ie: nat, w: Complex, j: nat, u: Complex)
    returns (out: seq<Complex>, pairs: seq<nat>)
    requires StageShape(|a|, ie) && |out0| == |a| && j < ie / 2 && u == TwiddlePower(w, j)
    requires StagedUpTo(a, out0, ie, w, j, j) && VisitedUpTo(pairs0, |a|, ie, j, j)
    ensures |out| == |a|
    ensures StagedUpTo(a, out, ie, w, j + 1, j + 1) && VisitedUpTo(pairs, |a|, ie, j + 1, j + 1)
  {
    var n, h := |a|, ie / 2;
    out, pairs := out0, pairs0;
    var i := j;
    ModUnique(i, 0, j, ie);
    while i < n
      invariant j <= i && i % ie == j && |out| == n
      invariant StagedUpTo(a, out, ie, w, j, i)
      invariant VisitedUpTo(pairs, n, ie, j, i)
    {
      ButterflyStep(a, out, ie, w, j, i, u);
      VisitStep(pairs, n, ie, j, i);
      var io := i + h;
      var tp := Add(out[i], out[io]);
      var tq := Sub(out[i], out[io]);
      out := out[io := Mul(tq, u)][i := tp];
      pairs := pairs + [i];
      ModShift(i, 1, ie);
      i := i + ie;
    }
    NextLane(a, out, pairs, ie, w, j, i);
  }

  /**
   * One stage, loop for loop as in the source. Besides the block it returns
   * the lower index of every butterfly in the order they run: every pair
   * (i, i + ie/2) with i in the lower half of its span is visited exactly
   * once, and all indices stay inside the block.
   */
  method ButterflyStage(a: seq<Complex>, ie: nat, w: Complex) returns (out: seq<Complex>, pairs: seq<nat>)
    requires StageShape(|a|, ie)
    ensures out == StageOut(a, ie, w)
    ensures forall x :: 0 <= x < |pairs| ==> pairs[x] % ie < ie / 2 && pairs[x] + ie / 2 < |a|
    ensures forall x, y :: 0 <= x < y < |pairs| ==> pairs[x] != pairs[y]
    ensures forall q :: 0 <= q < |a| && q % ie < ie / 2 ==> q in pairs
  {
    var n, h := |a|, ie / 2;
    out, pairs := a, [];
    var u := One;
    var j := 0;
    while j < h
      invariant 0 <= j <= h && |out| == n
      invariant u == TwiddlePower(w, j)
      invariant StagedUpTo(a, out, ie, w, j, j)
      invariant VisitedUpTo(pairs, n, ie, j, j)
    {
      out, pairs := RunLane(a, out, pairs, ie, w, j, u);
      u := Mul(u, w);
      j := j + 1;
    }
    AllLanes(a, out, pairs, ie, w);
  }
}

=== FILE: common.dfy ===
/**
 * The sample types of `LibLoader/common.h`: `Real` and the `{re, im}` pair
 * `Complex`. Single-precision floats are modelled by exact reals, and the
 * arithmetic below is written in the same shape as the source's expressions.
 */
module Common {

  type Real = real

  datatype Complex = Complex(re: Real, im: Real)

  const Zero: Complex := Complex(0.0, 0.0)

  /** The twiddle factor every butterfly lane starts from (`ru = 1; iu = 0`). */
  const One: Complex := Complex(1.0, 0.0)

  function Add(a: Complex, b: Complex): Complex
  {
    Complex(a.re + b.re, a.im + b.im)
  }

  function Sub(a: Complex, b: Complex): Complex
  {
    Complex(a.re - b.re, a.im - b.im)
  }

  /** `(x.re*u.re - x.im*u.im, x.im*u.re + x.re*u.im)`, as in the butterfly and twiddle update. */
  function Mul(x: Complex, u: Complex): Complex
  {
    Complex(x.re * u.re - x.im * u.im, x.im * u.re + x.re * u.im)
  }

  function Conj(a: Complex): Complex
  {
    Complex(a.re, -a.im)
  }

  /** Both parts multiplied by the same real factor. */
  function Scale(a: Complex, k: Real): Complex
  {
    Complex(a.re * k, a.im * k)
  }

  /** `re*re + im*im`. */
  function Power(a: Complex): Real
  {
    a.re * a.re + a.im * a.im
  }

  /** `vector<T>::resize(n)`: keeps the common prefix and appends value-initialised elements. */
  function ResizeSeq<T>(s: seq<T>, n: nat, zero: T): (r: seq<T>)
    ensures |r| == n
    ensures forall q :: 0 <= q < n ==> r[q] == (if q < |s| then s[q] else zero)
  {
    if n <= |s| then s[..n] else s + seq(n - |s|, _ => zero)
  }
}

=== FILE: dspcore.dfy ===
/**
 * `class DspCore`: the receive callback feeds IQ samples into a ring buffer;
 * a periodic tick drains the latest block, windows it, transforms it,
 * centres the zero frequency and turns each bin into a level `5 ln |X|^2`,
 * which `getSpectrum` copies out. The thread, timer, mutex and Qt signals
 * are represented by the state they leave behind: counters of started and
 * stopped worker loops and a log of emitted events.
 */
module DspCore {
  import opened Common
  import opened Powers
  import opened Modular
  import RingBuffer
  import Fft
  import Window

  /** `SpectrumSize`: the length of every block, table and spectrum. */
  const SpectrumSize: nat := 4096

  /**
   * The floating-point primitives the engine relies on: the complex roots
   * of unity of the transform, the window coefficients and `log`.
   */
  datatype Numerics = Numerics(root: Fft.RootOf, coeff: Window.CoeffOf, ln: Real -> Real)

  /** The Qt signals `readyRead()` and `adcOverloadChanged(bool)`. */
  datatype Event = SpectrumReady | OverloadChanged(state: bool)

  /**
   * The members of the singleton: `m_open`, `m_adcOverload`, `m_fft`,
   * `m_windows`, `m_iqSpectrumBuffer`, `m_signal`, `m_spectrum`, plus the
   * emitted signals and how often the worker loop was started and stopped.
   */
  datatype Core = Core(
    open: bool,
    overload: bool,
    fft: Fft.Fft,
    window: Window.Window,
    ring: RingBuffer.Ring<Complex>,
    signal: seq<Complex>,
    spectrum: seq<Real>,
    events: seq<Event>,
    starts: nat,
    stops: nat)

  /** Outcome of `callbackRx`: its return value and the new state. */
  datatype Received = Received(ok: bool, core: Core)

  /** The window table `setParam(SpectrumSize)` builds. */
  function SpectrumWindow(num: Numerics): (w: Window.Window)
    ensures |w.table| == SpectrumSize
    ensures forall i :: 0 <= i < SpectrumSize ==> w.table[i] == num.coeff(i, SpectrumSize)
  {
    Window.SetParam(Window.Unconfigured, SpectrumSize, num.coeff).window
  }

  /**
   * What the constructor establishes and every operation keeps: all blocks
   * have SpectrumSize entries, and the worker loop runs exactly when open.
   */
  predicate Valid(c: Core, num: Numerics)
  {
    && Fft.Valid(c.fft, num.root) && c.fft.size == SpectrumSize
    && c.window == SpectrumWindow(num)
    && RingBuffer.Valid(c.ring) && c.ring.size == SpectrumSize
    && |c.signal| == SpectrumSize
    && |c.spectrum| == SpectrumSize
    && c.starts == c.stops + (if c.open then 1 else 0)
  }

  /** SpectrumSize is 2^12, so every rounding in the constructor keeps it. */
  lemma SpectrumSizeIsPow2()
    ensures IsPow2(SpectrumSize) && Log2(SpectrumSize) == 12
  {
    Pow2Constants();
    Pow2IsPow2(12);
  }

  /** `m_fft`: the default 16-point transform after `setSize(SpectrumSize)`. */
  function SpectrumFft(num: Numerics): (f: Fft.Fft)
    ensures Fft.Valid(f, num.root) && f.size == SpectrumSize && f.logN == 12
  {
    SpectrumSizeIsPow2();
    Pow2Constants();
    var f := Fft.SetSize(Fft.New(Fft.DefaultSize, num.root), SpectrumSize, num.root).fft;
    RoundUpUnique(f.size, SpectrumSize, SpectrumSize);
    f
  }

  /** `m_iqSpectrumBuffer`: the default empty ring after `resize(SpectrumSize)`. */
  function SpectrumRing(): (rb: RingBuffer.Ring<Complex>)
    ensures RingBuffer.Valid(rb) && rb.size == SpectrumSize
    ensures rb.count == 0 && !rb.ready && rb.writePtr == 0
  {
    SpectrumSizeIsPow2();
    var rb := RingBuffer.Resize(RingBuffer.New(0, Zero), SpectrumSize, Zero);
    RoundUpUnique(rb.size, SpectrumSize, SpectrumSize);
    rb
  }

  /**
   * The constructor: the members' defaults (`fft()` of 16 points, an empty
   * window, a ring of size 0), then `setSize`, `setParam` and `resize` to
   * SpectrumSize, and zero-filled signal and spectrum.
   */
  function New(num: Numerics): (c: Core)
    ensures Valid(c, num)
    ensures !c.open && !c.overload && c.events == []
    ensures c.ring.count == 0 && !c.ring.ready
    ensures c.fft.logN == 12
    ensures forall i :: 0 <= i < SpectrumSize ==> c.signal[i] == Zero && c.spectrum[i] == 0.0
  {
    Core(false, false, SpectrumFft(num), SpectrumWindow(num), SpectrumRing(),
         ResizeSeq([], SpectrumSize, Zero), ResizeSeq([], SpectrumSize, 0.0), [], 0, 0)
  }

  // ---------------------------------------------------------------------------
  // Life cycle
  // ---------------------------------------------------------------------------

  /** `open()`: starts the worker loop unless it is already open. */
  function Open(c: Core): (r: Core)
    ensures r.open
    ensures r.starts == c.starts + (if c.open then 0 else 1)
    ensures r == c.(open := true, starts := r.starts)
  {
    if c.open then c else c.(open := true, starts := c.starts + 1)
  }

  /** `close()`: stops the worker loop and waits for it, unless already closed. */
  function Close(c: Core): (r: Core)
    ensures !r.open
    ensures r.stops == c.stops + (if c.open then 1 else 0)
    ensures r == c.(open := false, stops := r.stops)
  {
    if !c.open then c else c.(open := false, stops := c.stops + 1)
  }

  /** `isOpen()`. */
  function IsOpen(c: Core, num: Numerics): (b: bool)
    requires Valid(c, num)
    ensures b <==> c.starts > c.stops
  {
    c.open
  }

  /** `~DspCore()`: closes. */
  function Destroy(c: Core): (r: Core)
    ensures !r.open
    ensures r == Close(c)
  {
    Close(c)
  }

  /** Opening and closing keep the worker loop running exactly while open. */
  lemma OpenCloseKeepValid(c: Core, num: Numerics)
    requires Valid(c, num)
    ensures Valid(Open(c), num) && Valid(Close(c), num)
    ensures IsOpen(Open(c), num) && !IsOpen(Close(c), num)
  {
  }

  /** A second `open()` or `close()` does nothing. */
  lemma OpenCloseIdempotent(c: Core)
    ensures Open(Open(c)) == Open(c)
    ensures Close(Close(c)) == Close(c)
  {
  }

  /** After destruction every worker loop that was started has been stopped. */
  lemma DestroyStopsEveryLoop(c: Core, num: Numerics)
    requires Valid(c, num)
    ensures Destroy(c).starts == Destroy(c).stops
  {
  }

  /** A request to open (true) or close (false). */
  function Toggle(c: Core, open: bool): Core
  {
    if open then Open(c) else Close(c)
  }

  function ToggleAll(c: Core, requests: seq<bool>): Core
    decreases |requests|
  {
    if |requests| == 0 then c else ToggleAll(Toggle(c, requests[0]), requests[1..])
  }

  /**
   * Any sequence of opens and closes leaves at most one worker loop running,
   * and only the last request decides whether one is running.
   */
  lemma {:induction false} ToggleAllBalanced(c: Core, num: Numerics, requests: seq<bool>)
    requires Valid(c, num)
    ensures Valid(ToggleAll(c, requests), num)
    ensures |requests| > 0 ==> IsOpen(ToggleAll(c, requests), num) == requests[|requests| - 1]
    decreases |requests|
  {
    if |requests| > 0 {
      OpenCloseKeepValid(c, num);
      var rest := requests[1..];
      ToggleAllBalanced(Toggle(c, requests[0]), num, rest);
      if |rest| > 0 {
        assert rest[|rest| - 1] == requests[|requests| - 1];
      }
    }
  }

  // ---------------------------------------------------------------------------
  // Overload flag
  // ---------------------------------------------------------------------------

  /** `setAdcOverload(state)`: records the flag and signals only a change. */
  function SetAdcOverload(c: Core, state: bool): (r: Core)
    ensures r.overload == state
    ensures r.events == c.events + (if state != c.overload then [OverloadChanged(state)] else [])
    ensures r == c.(overload := state, events := r.events)
  {
    if c.overload != state then c.(overload := state, events := c.events + [OverloadChanged(state)])
    else c
  }

  /** The flags of successive callbacks, applied in order. */
  function Feed(c: Core, flags: seq<bool>): Core
    decreases |flags|
  {
    if |flags| == 0 then c else Feed(SetAdcOverload(c, flags[0]), flags[1..])
  }

  /**
   * Reference: the notifications a run of flags deserves, given the flag
   * before it: one for each flag that differs from its predecessor.
   */
  function Changes(prev: bool, flags: seq<bool>): seq<Event>
    decreases |flags|
  {
    if |flags| == 0 then []
    else
      var init := flags[..|flags| - 1];
      var last := flags[|flags| - 1];
      var before := if |init| == 0 then prev else init[|init| - 1];
      Changes(prev, init) + (if last != before then [OverloadChanged(last)] else [])
  }

  /** The last flag of a run, or the one before it if the run is empty. */
  function LastFlag(prev: bool, flags: seq<bool>): bool
  {
    if |flags| == 0 then prev else flags[|flags| - 1]
  }

  lemma {:induction false} FeedSnoc(c: Core, flags: seq<bool>, x: bool)
    ensures Feed(c, flags + [x]) == SetAdcOverload(Feed(c, flags), x)
    decreases |flags|
  {
    if |flags| > 0 {
      assert (flags + [x])[1..] == flags[1..] + [x];
      FeedSnoc(SetAdcOverload(c, flags[0]), flags[1..], x);
    }
  }

  /**
   * Feeding flags emits exactly the reference notifications, leaves the last
   * flag recorded, and changes nothing else.
   */
  lemma {:induction false} FeedEmitsChanges(c: Core, flags: seq<bool>)
    ensures Feed(c, flags).events == c.events + Changes(c.overload, flags)
    ensures Feed(c, flags).overload == LastFlag(c.overload, flags)
    ensures Feed(c, flags) == c.(overload := Feed(c, flags).overload, events := Feed(c, flags).events)
    decreases |flags|
  {
    if |flags| > 0 {
      var init := flags[..|flags| - 1];
      var last := flags[|flags| - 1];
      assert flags == init + [last];
      FeedEmitsChanges(c, init);
      FeedSnoc(c, init, last);
    }
  }

  /**
   * Notifications alternate: the first differs from the flag before the run,
   * each differs from the one before it, and the last names the final flag.
   */
  lemma {:induction false} ChangesAlternate(prev: bool, flags: seq<bool>)
    ensures var e := Changes(prev, flags);
      && (forall i :: 0 <= i < |e| ==> e[i].OverloadChanged?)
      && (|e| > 0 ==> e[0].state != prev)
      && (forall i :: 0 <= i < |e| - 1 ==> e[i].state != e[i + 1].state)
      && (|e| > 0 ==> e[|e| - 1].state == LastFlag(prev, flags))
      && (|e| == 0 ==> LastFlag(prev, flags) == prev)
    decreases |flags|
  {
    if |flags| > 0 {
      var init := flags[..|flags| - 1];
      var last := flags[|flags| - 1];
      var tail := if last != LastFlag(prev, init) then [OverloadChanged(last)] else [];
      assert Changes(prev, flags) == Changes(prev, init) + tail;
      ChangesAlternate(prev, init);
    }
  }

  // ---------------------------------------------------------------------------
  // Receive callback
  // ---------------------------------------------------------------------------

  /**
   * `callbackRx(pSrc, len, adcOverload, _)`: writes the samples into the
   * ring buffer, records the flag, and reports success. A count that would
   * pass 2^32 wraps in the source's 32-bit arithmetic and is excluded.
   */
  function CallbackRx(c: Core, num: Numerics, src: seq<Complex>, adcOverload: bool): (r: Received)
    requires Valid(c, num)
    requires c.ring.count + |src| < WordModulus
    ensures r.ok
    ensures Valid(r.core, num)
    ensures r.core.ring == RingBuffer.Write(c.ring, src).ring
    ensures r.core == SetAdcOverload(c, adcOverload).(ring := r.core.ring)
  {
    var w := RingBuffer.Write(c.ring, src).ring;
    Received(true, SetAdcOverload(c.(ring := w), adcOverload))
  }

  /** A fresh engine stays silent on callbacks that report no overload. */
  lemma QuietStartIsSilent(num: Numerics, src: seq<Complex>)
    requires |src| < WordModulus
    ensures CallbackRx(New(num), num, src, false).core.events == []
  {
    var c := New(num);
    assert c.events == [] && !c.overload && c.ring.count == 0;
  }

  // ---------------------------------------------------------------------------
  // Tick
  // ---------------------------------------------------------------------------

  /**
   * `std::rotate(first, first + h, last)`: the element at h becomes the
   * first, so entry i of the result is entry i + h of the input, wrapping.
   */
  function Rotate<T>(s: seq<T>, h: nat): (r: seq<T>)
    requires h <= |s|
    ensures |r| == |s|
    ensures forall i :: 0 <= i < |s| ==> r[i] == s[(i + h) % |s|]
  {
    var r := s[h..] + s[..h];
    forall i | 0 <= i < |s|
      ensures r[i] == s[(i + h) % |s|]
    {
      if i < |s| - h {
        ModUnique(i + h, 0, i + h, |s|);
        assert r[i] == s[i + h];
      } else {
        ModUnique(i + h, 1, i + h - |s|, |s|);
        assert r[i] == s[i + h - |s|];
      }
    }
    r
  }

  /** Rotating by half twice restores an even-length block. */
  lemma RotateHalfTwice<T>(s: seq<T>)
    requires |s| % 2 == 0
    ensures Rotate(Rotate(s, |s| / 2), |s| / 2) == s
  {
    var n := |s|;
    var h := n / 2;
    var r := Rotate(Rotate(s, h), h);
    forall i | 0 <= i < n
      ensures r[i] == s[i]
    {
      if i < h {
        ModUnique(i + h, 0, i + h, n);
        ModUnique(i + h + h, 1, i, n);
      } else {
        ModUnique(i + h, 1, i - h, n);
        ModUnique(i - h + h, 0, i, n);
      }
    }
  }

  /** The block a tick works on: the drained ring, or the previous block if the drain fails. */
  function TickInput(c: Core, num: Numerics): (b: seq<Complex>)
    requires Valid(c, num)
    ensures |b| == SpectrumSize
    ensures c.ring.ready ==> b == RingBuffer.ReadAll(c.ring, c.signal).dst
    ensures !c.ring.ready ==> b == c.signal
  {
    RingBuffer.ReadAll(c.ring, c.signal).dst
  }

  /** `5*log(re*re + im*im)` for every sample. */
  function Levels(num: Numerics, s: seq<Complex>): (r: seq<Real>)
    ensures |r| == |s|
    ensures forall i :: 0 <= i < |s| ==> r[i] == 5.0 * num.ln(Power(s[i]))
  {
    seq(|s|, i requires 0 <= i < |s| => 5.0 * num.ln(Power(s[i])))
  }

  /**
   * Each level depends on its own bin only, so centring the block before or
   * after the conversion gives the same spectrum.
   */
  lemma LevelsCommuteWithRotate(num: Numerics, s: seq<Complex>, h: nat)
    requires h <= |s|
    ensures Levels(num, Rotate(s, h)) == Rotate(Levels(num, s), h)
  {
  }

  /**
   * `process()`, one timer tick: drain (its result ignored), window, forward
   * transform, rotate by half, convert to levels, signal `readyRead`.
   */
  function Tick(c: Core, num: Numerics): (r: Core)
    requires Valid(c, num)
    ensures Valid(r, num)
    ensures r.events == c.events + [SpectrumReady]
    ensures r.ring == RingBuffer.ReadAll(c.ring, c.signal).ring
    ensures !r.ring.ready
    ensures forall i :: 0 <= i < SpectrumSize ==> r.spectrum[i] == 5.0 * num.ln(Power(r.signal[i]))
    ensures r == c.(ring := r.ring, signal := r.signal, spectrum := r.spectrum, events := r.events)
  {
    var d := RingBuffer.ReadAll(c.ring, c.signal);
    var windowed := Window.Process(c.window, d.dst);
    var transformed := Fft.Process(c.fft, num.root, windowed, true).block;
    var signal := Rotate(transformed, SpectrumSize / 2);
    c.(ring := d.ring, signal := signal, spectrum := Levels(num, signal), events := c.events + [SpectrumReady])
  }

  /** `m_windows.process` on a block of SpectrumSize samples. */
  function Windowed(num: Numerics, x: seq<Complex>): (r: seq<Complex>)
    requires |x| == SpectrumSize
    ensures |r| == SpectrumSize
    ensures forall q :: 0 <= q < SpectrumSize ==> r[q] == Scale(x[q], num.coeff(q, SpectrumSize))
  {
    Window.Process(SpectrumWindow(num), x)
  }

  /** The forward transform of the windowed tick input, before scaling and rotation. */
  function Frame(c: Core, num: Numerics): (t: seq<Complex>)
    requires Valid(c, num)
    ensures |t| == SpectrumSize
  {
    Fft.Transform(Windowed(num, TickInput(c, num)), c.fft.logN, c.fft.coeff)
  }

  /**
   * The signal a tick leaves, bin by bin: the windowed input transformed,
   * scaled by 1/SpectrumSize, and read half a block further on.
   */
  lemma TickSignal(c: Core, num: Numerics)
    requires Valid(c, num)
    ensures forall i :: 0 <= i < SpectrumSize ==>
      Tick(c, num).signal[i] == Scale(Frame(c, num)[(i + SpectrumSize / 2) % SpectrumSize], 1.0 / (SpectrumSize as real))
  {
  }

  /**
   * End to end: after a callback delivering at least SpectrumSize samples,
   * the next tick transforms exactly the last SpectrumSize of them.
   */
  lemma CallbackThenTick(c: Core, num: Numerics, src: seq<Complex>, adcOverload: bool)
    requires Valid(c, num)
    requires |src| >= SpectrumSize && c.ring.count + |src| < WordModulus
    ensures var c' := CallbackRx(c, num, src, adcOverload).core;
      && c'.ring.ready
      && TickInput(c', num) == src[|src| - SpectrumSize..]
  {
    RingBuffer.WriteThenDrain(c.ring, src, c.signal);
  }

  /**
   * Without a full block since the last drain, a tick leaves the ring as it
   * is and transforms its own previous output again.
   */
  lemma StaleTickReprocesses(c: Core, num: Numerics)
    requires Valid(c, num) && !c.ring.ready
    ensures TickInput(c, num) == c.signal
    ensures Tick(c, num).ring == c.ring
  {
  }

  // ---------------------------------------------------------------------------
  // Reading the spectrum
  // ---------------------------------------------------------------------------

  /**
   * `getSpectrum(data)`: resizes the caller's vector to SpectrumSize if
   * needed, then copies the spectrum into it element by element.
   */
  method GetSpectrum(c: Core, num: Numerics, data: seq<Real>) returns (out: seq<Real>)
    requires Valid(c, num)
    ensures out == c.spectrum
  {
    out := data;
    if |out| != SpectrumSize {
      out := ResizeSeq(out, SpectrumSize, 0.0);
    }
    var i := 0;
    while i < SpectrumSize
      invariant 0 <= i <= SpectrumSize && |out| == SpectrumSize
      invariant forall q :: 0 <= q < i ==> out[q] == c.spectrum[q]
    {
      out := out[i := c.spectrum[i]];
      i := i + 1;
    }
  }
}

=== FILE: fft.dfy ===
/**
 * `class fft`: a radix-2 transform whose size is rounded up to a power of two,
 * with a table of logN twiddle roots, decimation-in-frequency stages and a
 * final bit-reversal reordering.
 *
 * The roots themselves are floating-point cosines and sines; they are a
 * parameter `root`, where root(m) stands for (cos 2*pi/m, sin 2*pi/m).
 */
module Fft {
  import opened Common
  import opened Powers
  import opened Butterfly
  import BitReversal
  import Modular

  /** Default of the constructor's `t_size`. */
  const DefaultSize: nat := 16

  /** Largest size `powToNext` rounds to; larger requests wrap to 0. */
  const MaxSize: nat := 0x8000_0000

  type RootOf = nat -> Complex

  /**
   * `m_size`, `m_logN` and `m_coeff`. The scale `m_k` is always set to
   * 1/m_size together with the size, so it is derived here (`ScaleOf`).
   */
  datatype Fft = Fft(size: nat, logN: nat, coeff: seq<Complex>)

  /** `m_k`: the factor the forward result is scaled by. */
  function ScaleOf(f: Fft): Real
    requires f.size > 0
  {
    1.0 / (f.size as real)
  }

  /** Outcome of `setSize`: its result and the new state. */
  datatype Resized = Resized(ok: bool, fft: Fft)

  /** Outcome of `process`: its result and the block. */
  datatype Processed = Processed(ok: bool, block: seq<Complex>)

  /** Entry j of the table is the root of order 2^(j+1). */
  function Twiddles(logN: nat, root: RootOf): seq<Complex>
  {
    seq(logN, j requires 0 <= j < logN => root(Pow2(j + 1)))
  }

  /**
   * The state `init()` establishes for a power-of-two size. At size 2^31 this
   * is the table of the corrected loop `InitTable`; the source's loop does not
   * finish there (`InitLoopNeverStopsAtMax`).
   */
  predicate Valid(f: Fft, root: RootOf)
  {
    && IsPow2(f.size) && f.size <= MaxSize
    && f.logN == Log2(f.size)
    && f.coeff == Twiddles(f.logN, root)
  }

  /**
   * `init()` for a power-of-two size: `m_logN = log2(size)` and the table
   * (`m_k = 1/size` is `ScaleOf`). The table loop is the corrected one of `InitTable`.
   */
  function Init(size: nat, root: RootOf): (f: Fft)
    requires IsPow2(size) && size <= MaxSize
    ensures Valid(f, root) && f.size == size
  {
    Fft(size, Log2(size), Twiddles(Log2(size), root))
  }

  /**
   * The table loop `for (i = 2, j = 0; i <= m_size; i <<= 1, ++j)` with i
   * wide enough not to wrap: it runs exactly logN times and fills every
   * entry j with the root of order i = 2^(j+1).
   */
  method InitTable(size: nat, root: RootOf) returns (coeff: seq<Complex>)
    requires IsPow2(size) && size <= MaxSize
    ensures |coeff| == Log2(size)
    ensures forall j :: 0 <= j < |coeff| ==> coeff[j] == root(Pow2(j + 1))
  {
    var logN := Log2(size);
    // `m_coeff.resize(m_logN)`: the entries start as anything, since the loop overwrites every one
    coeff := seq(logN, _ => Zero);
    var i, j := 2, 0;
    while i <= size
      invariant j <= logN && i == Pow2(j + 1) && |coeff| == logN
      invariant forall q :: 0 <= q < j ==> coeff[q] == root(Pow2(q + 1))
      decreases size - i
    {
      Pow2Below(j + 1, logN);
      coeff := coeff[j := root(i)];
      i, j := 2 * i, j + 1;
    }
    Pow2Order(j + 1, logN);
  }

  /** `powToNext` as the class uses it. */
  function RoundSize(t: nat): (r: nat)
    requires 1 <= t <= MaxSize
    ensures IsPow2(r) && r / 2 < t <= r <= MaxSize
  {
    PowToNext(t)
  }

  /** The constructor `fft(t_size)`: the size rounded up to a power of two, then `init()`. */
  function New(t: nat, root: RootOf): (f: Fft)
    requires 1 <= t <= MaxSize
    ensures Valid(f, root)
    ensures f.size / 2 < t <= f.size
  {
    Init(RoundSize(t), root)
  }

  /**
   * `setSize(t_size)`: 0 is refused, the current size is accepted as it is,
   * anything else is rounded and the tables rebuilt.
   */
  function SetSize(f: Fft, t: nat, root: RootOf): (r: Resized)
    requires Valid(f, root) && t <= MaxSize
    ensures Valid(r.fft, root)
    ensures r.ok <==> t != 0
    ensures t == 0 || t == f.size ==> r.fft == f
    ensures t != 0 ==> r.fft.size / 2 < t <= r.fft.size
  {
    if t == 0 then Resized(false, f)
    else if f.size == t then Resized(true, f)
    else Resized(true, Init(RoundSize(t), root))
  }

  /** `size()`: for a transform set up by `init()`, the 2^logN points its stages cover. */
  function Size(f: Fft): (s: nat)
    ensures IsPow2(f.size) && f.logN == Log2(f.size) ==> s == Pow2(f.logN)
  {
    f.size
  }

  /** Rounding makes a second `setSize` with the same request a no-op. */
  lemma SetSizeIdempotent(f: Fft, t: nat, root: RootOf)
    requires Valid(f, root) && t <= MaxSize
    ensures SetSize(SetSize(f, t, root).fft, t, root) == SetSize(f, t, root)
  {
  }

  /** A request that already is a power of two is taken exactly. */
  lemma SetSizeExactOnPow2(f: Fft, t: nat, root: RootOf)
    requires Valid(f, root) && IsPow2(t) && t <= MaxSize
    ensures SetSize(f, t, root).fft.size == t
  {
    PowToNextIdentityOnPow2(t);
  }

  // ---------------------------------------------------------------------------
  // The transform
  // ---------------------------------------------------------------------------

  /** A power-of-two span cuts a power-of-two block into whole spans. */
  lemma SpanShape(s: nat, logN: nat)
    requires 1 <= s <= logN
    ensures StageShape(Pow2(logN), Pow2(s))
  {
    Pow2Add(s, logN - s);
    Pow2Monotone(1, s);
    assert Pow2(s) == 2 * Pow2(s - 1);
    Modular.ModUnique(Pow2(logN), Pow2(logN - s), 0, Pow2(s));
  }

  /** The span of stage n: `ie` starts at `m_size` and is halved after each stage. */
  function Span(logN: nat, n: nat): nat
    requires 1 <= n <= logN + 1
  {
    Pow2(logN - n + 1)
  }

  /**
   * Stage n (1-based) uses span size >> (n - 1) and table entry logN - n,
   * which is the root of exactly that order.
   */
  lemma StageUsesRootOfItsSpan(f: Fft, root: RootOf, n: nat)
    requires Valid(f, root) && 1 <= n <= f.logN
    ensures Span(f.logN, n) * Pow2(n - 1) == f.size
    ensures f.coeff[f.logN - n] == root(Span(f.logN, n))
  {
    Pow2Add(f.logN - n + 1, n - 1);
  }

  /** Stages n .. logN of the network, the span halving from one stage to the next. */
  function Stages(a: seq<Complex>, logN: nat, table: seq<Complex>, n: nat): (b: seq<Complex>)
    requires |a| == Pow2(logN) && |table| == logN && 1 <= n <= logN + 1
    ensures |b| == |a|
    decreases logN + 1 - n
  {
    if n > logN then a
    else
      SpanShape(logN - n + 1, logN);
      Stages(StageOut(a, Span(logN, n), table[logN - n]), logN, table, n + 1)
  }

  /** All stages followed by the bit-reversal reordering. */
  function Transform(a: seq<Complex>, logN: nat, table: seq<Complex>): (b: seq<Complex>)
    requires |a| == Pow2(logN) && |table| == logN
    ensures |b| == |a|
  {
    BitReversal.Permute(Stages(a, logN, table, 1), logN)
  }

  /** The table with every root conjugated: `iw = -m_coeff[...].im`. */
  function Conjugated(table: seq<Complex>): (c: seq<Complex>)
    ensures |c| == |table|
    ensures forall j :: 0 <= j < |table| ==> c[j] == Conj(table[j])
  {
    seq(|table|, j requires 0 <= j < |table| => Conj(table[j]))
  }

  /**
   * `forward(srcDst)` or `backward(srcDst)`, loop for loop: the stages with
   * `ie` halving, then the swap loop. The backward pass differs only in the
   * conjugated twiddle.
   */
  method RunTransform(f: Fft, root: RootOf, a: seq<Complex>, fwd: bool) returns (out: seq<Complex>)
    requires Valid(f, root) && |a| == f.size
    ensures out == Transform(a, f.logN, if fwd then f.coeff else Conjugated(f.coeff))
  {
    var table := if fwd then f.coeff else Conjugated(f.coeff);
    var logN := f.logN;
    out := a;
    var ie := f.size;
    var n := 1;
    while n <= logN
      invariant 1 <= n <= logN + 1 && |out| == |a| && ie == Span(logN, n)
      invariant Stages(out, logN, table, n) == Stages(a, logN, table, 1)
    {
      SpanShape(logN - n + 1, logN);
      var w := table[logN - n];
      var pairs;
      out, pairs := ButterflyStage(out, ie, w);
      ie := ie / 2;
      n := n + 1;
    }
    out := BitReversal.BitReverse(out, logN);
  }

  /**
   * `process(srcDst, fwd)`: refused, with the block untouched, unless its
   * length is the size; otherwise transformed in place, and the forward
   * result is scaled by `m_k = 1/size`.
   */
  function Process(f: Fft, root: RootOf, block: seq<Complex>, fwd: bool): (r: Processed)
    requires Valid(f, root)
    ensures r.ok <==> |block| == f.size
    ensures !r.ok ==> r.block == block
    ensures |r.block| == |block|
    ensures r.ok && fwd ==> forall i :: 0 <= i < |block| ==>
      r.block[i] == Scale(Transform(block, f.logN, f.coeff)[i], 1.0 / (f.size as real))
    ensures r.ok && !fwd ==> r.block == Transform(block, f.logN, Conjugated(f.coeff))
  {
    if |block| != f.size || f.size == 0 then Processed(false, block)
    else if fwd then
      var t := Transform(block, f.logN, f.coeff);
      Processed(true, seq(|t|, i requires 0 <= i < |t| => Scale(t[i], ScaleOf(f))))
    else Processed(true, Transform(block, f.logN, Conjugated(f.coeff)))
  }

  // ---------------------------------------------------------------------------
  // The table loop as written (see Findings in the README)
  // ---------------------------------------------------------------------------

  /** The value of the uint32_t `i` at iteration j of the table loop: 2, then `i <<= 1`. */
  function InitCursor(j: nat): (i: nat)
    ensures i < WordModulus
  {
    if j == 0 then 2 else (2 * InitCursor(j - 1)) % WordModulus
  }

  /** The cursor is 2^(j+1) until the shift pushes the bit out of the word. */
  lemma {:induction false} InitCursorValue(j: nat)
    ensures j < 31 ==> InitCursor(j) == Pow2(j + 1)
    ensures j >= 31 ==> InitCursor(j) == 0
  {
    Pow2Constants();
    if 0 < j < 31 {
      InitCursorValue(j - 1);
      Pow2Order(j + 1, 31);
      assert 2 * InitCursor(j - 1) == Pow2(j + 1) < WordModulus;
    } else if j == 31 {
      InitCursorValue(30);
      assert 2 * InitCursor(30) == WordModulus;
    } else if j > 31 {
      InitCursorValue(j - 1);
      assert InitCursor(j - 1) == 0;
    }
  }

  /** Below 2^31 the loop as written stops after exactly logN iterations. */
  lemma InitLoopStopsBelowMax(size: nat, j: nat)
    requires IsPow2(size) && size < MaxSize && j <= Log2(size)
    ensures InitCursor(j) <= size <==> j < Log2(size)
  {
    var logN := Log2(size);
    Pow2Constants();
    Pow2Order(31, logN);
    assert logN < 31;
    InitCursorValue(j);
    Pow2Order(j + 1, logN);
    assert j == logN ==> InitCursor(j) == 2 * size;
  }

  /**
   * For size 2^31 the guard `i <= m_size` holds at every iteration: i reaches
   * 2^31, then wraps to 0 and stays there. Iteration 31 already writes
   * `m_coeff[31]`, one past the 31-entry table.
   */
  lemma InitLoopNeverStopsAtMax(j: nat)
    ensures IsPow2(MaxSize) && Log2(MaxSize) == 31
    ensures InitCursor(j) <= MaxSize
    ensures InitCursor(31) == 0
  {
    Pow2Constants();
    Pow2IsPow2(31);
    InitCursorValue(j);
    InitCursorValue(31);
    Pow2Order(j + 1, 31);
  }
}

=== FILE: modular.dfy ===
/** Facts about `%` by a positive modulus used for cyclic buffer positions. */
module Modular {

  /** The slot that the i-th sample after cursor w lands in, in a buffer of n slots. */
  function Slot(w: int, i: int, n: int): (s: int)
    requires n > 0
    ensures 0 <= s < n
  {
    (w + i) % n
  }

  /** The only multiple of n strictly between -n and n is 0. */
  lemma MultipleBetween(n: int, k: int)
    requires n > 0 && -n < n * k < n
    ensures k == 0
  {
    assert k >= 1 ==> n * (k - 1) >= 0;
    assert k <= -1 ==> n * (-k - 1) >= 0;
  }

  /** Positions less than n apart never share a slot. */
  lemma ModDistinct(a: int, b: int, n: int)
    requires n > 0 && a < b < a + n
    ensures a % n != b % n
  {
    var qa, qb := a / n, b / n;
    assert a % n == b % n ==> b - a == n * (qb - qa);
    assert a % n == b % n ==> -n < n * (qb - qa) < n;
    if a % n == b % n {
      MultipleBetween(n, qb - qa);
    }
  }

  /** Reducing a summand modulo n does not change the sum's slot. */
  lemma ModAddLeft(a: int, b: int, n: int)
    requires n > 0
    ensures (a % n + b) % n == (a + b) % n
  {
    var q := a / n;
    assert a == n * q + a % n;
    ModShift(a % n + b, q, n);
  }

  /** Adding whole turns of n does not change the slot. */
  lemma ModShift(a: int, k: int, n: int)
    requires n > 0
    ensures (a + n * k) % n == a % n
  {
    var q, r := a / n, a % n;
    assert a + n * k == n * (q + k) + r;
    ModUnique(a + n * k, q + k, r, n);
  }

  lemma ModUnique(x: int, q: int, r: int, n: int)
    requires n > 0 && 0 <= r < n && x == n * q + r
    ensures x % n == r && x / n == q
  {
    var q', r' := x / n, x % n;
    assert n * (q - q') == r' - r;
    MultipleBetween(n, q - q');
  }

  /**
   * Reading i slots past a cursor that has advanced by len reaches the slot
   * the sample at len - n + i was written to, one full turn earlier.
   */
  lemma SlotAfterTurn(w: int, len: int, i: int, n: int)
    requires n > 0
    ensures Slot(Slot(w, len, n), i, n) == Slot(w, len - n + i, n)
  {
    ModAddLeft(w + len, i, n);
    ModShift(w + len - n + i, 1, n);
  }

  /** Moving inside one span of n keeps the quotient and shifts the remainder. */
  lemma ShiftWithinSpan(x: int, d: int, n: int)
    requires n > 0 && 0 <= x % n + d < n
    ensures (x + d) % n == x % n + d
  {
    assert x == n * (x / n) + x % n;
    ModUnique(x + d, x / n, x % n + d, n);
  }

  /** A positive multiple of n is at least n. */
  lemma PositiveMultiple(n: int, k: int)
    requires n > 0 && n * k > 0
    ensures n * k >= n
  {
    assert k >= 1 ==> n * (k - 1) >= 0;
    assert k <= 0 ==> n * (-k) >= 0;
  }

  /**
   * In a length that is a whole number of spans of n = 2h, an index in the
   * lower half of its span has its partner h further on inside the length.
   */
  lemma PartnerBelow(q: int, h: int, n: int, len: int)
    requires h > 0 && n == 2 * h && len % n == 0 && 0 <= q < len && q % n < h
    ensures q + h < len
  {
    var k := len / n - q / n;
    assert q == n * (q / n) + q % n;
    assert len == n * (len / n);
    assert n * k == len - q + q % n;
    PositiveMultiple(n, k);
  }

  /** Two positions less than n apart with the same remainder are the same position. */
  lemma SameSlotWithinSpan(a: int, b: int, n: int)
    requires n > 0 && a <= b < a + n && a % n == b % n
    ensures a == b
  {
    var k := b / n - a / n;
    assert a == n * (a / n) + a % n;
    assert b == n * (b / n) + b % n;
    assert b - a == n * k;
    MultipleBetween(n, k);
  }

  /** The remainder of a natural number never exceeds it. */
  lemma ModAtMost(x: int, n: int)
    requires x >= 0 && n > 0
    ensures x % n <= x
  {
    assert x == n * (x / n) + x % n;
    assert x / n >= 0 ==> n * (x / n) >= 0;
  }
}

=== FILE: pow2.dfy ===
/**
 * Powers of two and the "round up to the next power of two" bit trick shared by
 * `fft::powToNext` (uint32_t) and `SpectrumRingBuffer::pow2Next` (int).
 *
 * A 32-bit word is modelled as a little-endian sequence of 32 booleans, so that
 * the shift-and-or cascade of the source can be stated bit by bit while every
 * number stays an unbounded `int`.
 */
module Powers {

  const WordBits: nat := 32
  const WordModulus: nat := 0x1_0000_0000

  function Pow2(k: nat): (r: nat)
    ensures r >= 1
  {
    if k == 0 then 1 else 2 * Pow2(k - 1)
  }

  /** n is 1, 2, 4, 8, ... */
  predicate IsPow2(n: int)
    decreases if n > 0 then n else 0
  {
    n == 1 || (n > 1 && n % 2 == 0 && IsPow2(n / 2))
  }

  /** The exponent of a power of two. */
  function Log2(n: int): (k: nat)
    requires IsPow2(n)
    ensures Pow2(k) == n
    decreases if n > 0 then n else 0
  {
    if n == 1 then 0 else 1 + Log2(n / 2)
  }

  lemma {:induction false} Pow2IsPow2(k: nat)
    ensures IsPow2(Pow2(k))
    ensures Log2(Pow2(k)) == k
  {
    if k > 0 {
      Pow2IsPow2(k - 1);
    }
  }

  lemma {:induction false} Pow2Monotone(a: nat, b: nat)
    requires a <= b
    ensures Pow2(a) <= Pow2(b)
    ensures a < b ==> 2 * Pow2(a) <= Pow2(b)
    decreases b
  {
    if a < b {
      Pow2Monotone(a, b - 1);
    }
  }

  /** Monotonicity stated as an implication, usable without a case split. */
  lemma Pow2Order(a: nat, b: nat)
    ensures a <= b ==> Pow2(a) <= Pow2(b)
  {
    if a <= b {
      Pow2Monotone(a, b);
    }
  }

  /** Powers of two are ordered as their exponents. */
  lemma Pow2Below(a: nat, b: nat)
    requires Pow2(a) <= Pow2(b)
    ensures a <= b
  {
    Pow2Order(b + 1, a);
  }

  lemma Pow2Add(a: nat, b: nat)
    ensures Pow2(a + b) == Pow2(a) * Pow2(b)
    decreases b
  {
    if b > 0 {
      Pow2Add(a, b - 1);
    }
  }

  lemma Pow2Constants()
    ensures Pow2(12) == 0x1000
    ensures Pow2(30) == 0x4000_0000
    ensures Pow2(31) == 0x8000_0000
    ensures Pow2(32) == WordModulus
  {
    assert Pow2(4) == 16;
    Pow2Add(4, 4);
    Pow2Add(8, 4);
    Pow2Add(8, 8);
    Pow2Add(16, 8);
    Pow2Add(24, 6);
    Pow2Add(30, 1);
    Pow2Add(31, 1);
  }

  /** Two powers of two that both round the same d up (p/2 < d <= p) are equal. */
  lemma {:induction false} RoundUpUnique(p: int, q: int, d: int)
    requires IsPow2(p) && IsPow2(q)
    requires p / 2 < d <= p && q / 2 < d <= q
    ensures p == q
  {
    var a, b := Log2(p), Log2(q);
    if a < b {
      Pow2Monotone(a, b);
    } else if b < a {
      Pow2Monotone(b, a);
    }
  }

  /** A power of two whose half is below the power of two m is at most m. */
  lemma {:induction false} Pow2AtMost(r: int, m: int)
    requires IsPow2(r) && IsPow2(m) && r / 2 < m
    ensures r <= m
  {
    var a, b := Log2(r), Log2(m);
    if b < a {
      Pow2Monotone(b, a - 1);
    } else {
      Pow2Monotone(a, b);
    }
  }

  /**
   * Reference definition: the smallest power of two that is >= d, found by
   * doubling from p (every power below p is already too small).
   */
  function NextPow2From(d: int, p: int): (r: int)
    requires IsPow2(p) && p / 2 < d
    ensures IsPow2(r) && r / 2 < d <= r
    decreases d - p
  {
    if p >= d then p else NextPow2From(d, 2 * p)
  }

  function NextPow2(d: int): (r: int)
    requires d >= 1
    ensures IsPow2(r) && r / 2 < d <= r
  {
    NextPow2From(d, 1)
  }

  // ---------------------------------------------------------------------------
  // 32-bit words as bit sequences
  // ---------------------------------------------------------------------------

  type Bits = seq<bool>

  /** The n low bits of x, least significant first. */
  function ToBits(x: nat, n: nat): (b: Bits)
    ensures |b| == n
  {
    if n == 0 then [] else [x % 2 == 1] + ToBits(x / 2, n - 1)
  }

  function FromBits(b: Bits): nat
  {
    if |b| == 0 then 0 else (if b[0] then 1 else 0) + 2 * FromBits(b[1..])
  }

  lemma {:induction false} FromToBits(x: nat, n: nat)
    requires x < Pow2(n)
    ensures FromBits(ToBits(x, n)) == x
  {
    if n > 0 {
      FromToBits(x / 2, n - 1);
      assert ToBits(x, n)[1..] == ToBits(x / 2, n - 1);
    }
  }

  /** `w | (w >> s)` on a word. */
  function ShrOr(w: Bits, s: nat): (r: Bits)
    ensures |r| == |w|
  {
    seq(|w|, i requires 0 <= i < |w| => w[i] || (i + s < |w| && w[i + s]))
  }

  /** Some bit among positions [i, i + width) of w is set. */
  ghost predicate AnySet(w: Bits, i: nat, width: nat)
  {
    exists j :: i <= j < i + width && j < |w| && w[j]
  }

  /** The cascade `d |= d >> 1; d |= d >> 2; d |= d >> 4; d |= d >> 8; d |= d >> 16`. */
  function Smear(w: Bits): Bits
    requires |w| == WordBits
  {
    ShrOr(ShrOr(ShrOr(ShrOr(ShrOr(w, 1), 2), 4), 8), 16)
  }

  lemma {:induction false} ShrOrDoublesWindow(w: Bits, y: Bits, s: nat)
    requires |y| == |w|
    requires forall i :: 0 <= i < |y| ==> (y[i] <==> AnySet(w, i, s))
    ensures forall i :: 0 <= i < |y| ==> (ShrOr(y, s)[i] <==> AnySet(w, i, 2 * s))
  {
    forall i | 0 <= i < |y|
      ensures ShrOr(y, s)[i] <==> AnySet(w, i, 2 * s)
    {
      if AnySet(w, i, 2 * s) {
        var j :| i <= j < i + 2 * s && j < |w| && w[j];
        if j >= i + s {
          assert AnySet(w, i + s, s);
        } else {
          assert AnySet(w, i, s);
        }
      }
      if ShrOr(y, s)[i] {
        if y[i] {
          assert AnySet(w, i, s);
        } else {
          assert AnySet(w, i + s, s);
          var j :| i + s <= j < i + s + s && j < |w| && w[j];
          assert i <= j < i + 2 * s;
        }
      }
    }
  }

  /** After the cascade, bit i is set exactly when some bit at or above i was set. */
  lemma SmearSetsEverythingBelowTop(w: Bits)
    requires |w| == WordBits
    ensures forall i :: 0 <= i < WordBits ==> (Smear(w)[i] <==> AnySet(w, i, WordBits))
  {
    forall i | 0 <= i < |w|
      ensures w[i] <==> AnySet(w, i, 1)
    {
      if AnySet(w, i, 1) {
        var j :| i <= j < i + 1 && j < |w| && w[j];
        assert j == i;
      }
    }
    var y1 := ShrOr(w, 1);
    ShrOrDoublesWindow(w, w, 1);
    var y2 := ShrOr(y1, 2);
    ShrOrDoublesWindow(w, y1, 2);
    var y4 := ShrOr(y2, 4);
    ShrOrDoublesWindow(w, y2, 4);
    var y8 := ShrOr(y4, 8);
    ShrOrDoublesWindow(w, y4, 8);
    ShrOrDoublesWindow(w, y8, 16);
  }

  /** Number of bits up to and including the highest set bit (0 for the zero word). */
  function BitLength(w: Bits): (n: nat)
    ensures n <= |w|
    ensures forall j :: n <= j < |w| ==> !w[j]
    ensures n > 0 ==> w[n - 1]
  {
    if |w| == 0 then 0
    else if w[|w| - 1] then |w|
    else BitLength(w[..|w| - 1])
  }

  lemma {:induction false} FromBitsBelow(w: Bits, k: nat)
    requires forall j :: k <= j < |w| ==> !w[j]
    ensures FromBits(w) < Pow2(k)
  {
    if |w| > 0 {
      if k == 0 {
        FromBitsBelow(w[1..], 0);
        assert !w[0];
        assert FromBits(w[1..]) < 1;
      } else {
        FromBitsBelow(w[1..], k - 1);
      }
    }
  }

  lemma {:induction false} FromBitsAtLeast(w: Bits, k: nat)
    requires k < |w| && w[k]
    ensures FromBits(w) >= Pow2(k)
  {
    if k > 0 {
      FromBitsAtLeast(w[1..], k - 1);
    }
  }

  /** A word whose n lowest bits are set and the rest clear has value 2^n - 1. */
  lemma {:induction false} FromBitsOnes(w: Bits, n: nat)
    requires n <= |w|
    requires forall j :: 0 <= j < |w| ==> (w[j] <==> j < n)
    ensures FromBits(w) == Pow2(n) - 1
  {
    if |w| > 0 {
      if n == 0 {
        FromBitsOnes(w[1..], 0);
      } else {
        FromBitsOnes(w[1..], n - 1);
      }
    }
  }

  /** Position just above the highest set bit of the 32-bit word x. */
  function TopBit(x: nat): nat
  {
    BitLength(ToBits(x, WordBits))
  }

  /** The value of the smeared word: all ones up to the highest set bit of x. */
  lemma SmearValue(x: nat)
    requires x < WordModulus
    ensures TopBit(x) <= WordBits
    ensures FromBits(Smear(ToBits(x, WordBits))) == Pow2(TopBit(x)) - 1
    ensures x < Pow2(TopBit(x))
    ensures TopBit(x) > 0 ==> Pow2(TopBit(x) - 1) <= x
  {
    var w := ToBits(x, WordBits);
    var n := BitLength(w);
    Pow2Constants();
    FromToBits(x, WordBits);
    SmearSetsEverythingBelowTop(w);
    forall j | 0 <= j < WordBits
      ensures Smear(w)[j] <==> j < n
    {
      if j < n {
        assert AnySet(w, j, WordBits);
      }
    }
    FromBitsOnes(Smear(w), n);
    FromBitsBelow(w, n);
    if n > 0 {
      FromBitsAtLeast(w, n - 1);
    }
  }

  /** The top bit of x = d - 1 is bit 31 for d = 0 and d > 2^31: `++d` wraps to 0. */
  lemma {:induction false} IncrementWraps(x: nat, n: nat, v: nat, r: nat)
    requires 0x8000_0000 <= x < WordModulus
    requires n <= WordBits && x < Pow2(n)
    requires v + 1 == Pow2(n) && r == (v + 1) % WordModulus
    ensures r == 0
  {
    Pow2Constants();
    if n < 32 {
      Pow2Monotone(n, 31);
    }
  }

  /** Below 2^31, `++d` gives the power of two just above x = d - 1. */
  lemma {:induction false} IncrementRounds(d: nat, n: nat, v: nat, r: nat)
    requires 1 <= d <= 0x8000_0000
    requires n <= WordBits && d - 1 < Pow2(n) && (n > 0 ==> Pow2(n - 1) <= d - 1)
    requires v + 1 == Pow2(n) && r == (v + 1) % WordModulus
    ensures IsPow2(r) && r / 2 < d <= r <= 0x8000_0000
  {
    Pow2Constants();
    Pow2Monotone(n, 31);
    Pow2IsPow2(n);
    assert Pow2(n) <= 0x8000_0000;
    assert r == Pow2(n);
    assert n > 0 ==> r / 2 == Pow2(n - 1);
  }

  /**
   * `fft::powToNext`: `--d; smear; ++d` on uint32_t. Decrementing 0 wraps to
   * 0xFFFFFFFF and incrementing 0xFFFFFFFF wraps to 0, so 0 and every d above
   * 2^31 map to 0; otherwise the result is the smallest power of two >= d.
   */
  function PowToNext(d: nat): (r: nat)
    requires d < WordModulus
    ensures d == 0 || d > 0x8000_0000 ==> r == 0
    ensures 1 <= d <= 0x8000_0000 ==> IsPow2(r) && r / 2 < d <= r <= 0x8000_0000
  {
    var x := if d == 0 then WordModulus - 1 else d - 1;  // --d wraps at 0
    var v := Smeared(x);
    var r := (v + 1) % WordModulus;  // ++d wraps at 0xFFFFFFFF
    if x >= 0x8000_0000 then
      IncrementWraps(x, TopBit(x), v, r);
      r
    else
      IncrementRounds(d, TopBit(x), v, r);
      r
  }

  /** The shift-and-or cascade applied to the 32-bit word x. */
  function Smeared(x: nat): (v: nat)
    requires x < WordModulus
    ensures TopBit(x) <= WordBits
    ensures x < Pow2(TopBit(x)) && (TopBit(x) > 0 ==> Pow2(TopBit(x) - 1) <= x)
    ensures v + 1 == Pow2(TopBit(x))
  {
    SmearValue(x);
    FromBits(Smear(ToBits(x, WordBits)))
  }

  /** The bit trick agrees with the doubling reference definition. */
  lemma PowToNextIsNextPow2(d: nat)
    requires 1 <= d <= 0x8000_0000
    ensures PowToNext(d) == NextPow2(d)
  {
    RoundUpUnique(PowToNext(d), NextPow2(d), d);
  }

  /** Rounding is the identity on powers of two, hence idempotent. */
  lemma PowToNextIdentityOnPow2(d: nat)
    requires IsPow2(d) && d <= 0x8000_0000
    ensures PowToNext(d) == d
  {
    RoundUpUnique(d, PowToNext(d), d);
  }

  lemma PowToNextIdempotent(d: nat)
    requires d < WordModulus
    ensures PowToNext(PowToNext(d)) == PowToNext(d)
  {
    var r := PowToNext(d);
    if r != 0 {
      PowToNextIdentityOnPow2(r);
    }
  }
}

=== FILE: ringbuffer.dfy ===
/**
 * `SDR::SpectrumRingBuffer<T>`: a power-of-two circular buffer that is filled
 * in bursts of any length and drained one whole buffer at a time.
 *
 * State: `size` (m_size), `mask` (m_mask, i.e. size - 1 as a quint32),
 * `writePtr` (m_writePtr), `count` (m_bytesForRead, the samples accumulated,
 * saturating at size), `ready` (m_readyRead, the drain gate) and `buf`
 * (m_buffer). The source indexes with `ptr & mask`; for a power-of-two size
 * that is `ptr % size`, which is how slots are written here.
 */
module RingBuffer {
  import opened Powers
  import opened Modular
  import opened Common

  /** Largest request the signed-int `pow2Next` rounds without overflowing. */
  const MaxRequest: nat := 0x4000_0000

  datatype Ring<T> = Ring(size: nat, mask: nat, writePtr: nat, count: nat, ready: bool, buf: seq<T>)

  /** Outcome of `write`: its boolean result and the new state. */
  datatype Written<T> = Written(ok: bool, ring: Ring<T>)

  /** Outcome of `readAll`: its boolean result, the new state and the destination. */
  datatype Drained<T> = Drained(ok: bool, ring: Ring<T>, dst: seq<T>)

  /** `m_size - 1` computed on quint32: 0xFFFFFFFF for an empty buffer. */
  function MaskOf(size: nat): nat
  {
    if size == 0 then WordModulus - 1 else size - 1
  }

  function Min(a: int, b: int): int
  {
    if a <= b then a else b
  }

  predicate Valid<T>(rb: Ring<T>)
  {
    && (rb.size == 0 || IsPow2(rb.size))
    && rb.size <= MaxRequest
    && rb.mask == MaskOf(rb.size)
    && |rb.buf| == rb.size
    && rb.writePtr < WordModulus
    && rb.count <= rb.size
  }

  /**
   * `pow2Next(int d)`: the same decrement/smear/increment cascade as
   * `fft::powToNext`; on 0 <= d <= 2^30 the signed and unsigned versions agree.
   */
  function Pow2Next(d: int): (r: nat)
    requires 0 <= d <= MaxRequest
    ensures d == 0 ==> r == 0
    ensures d > 0 ==> IsPow2(r) && r / 2 < d <= r
    ensures r <= MaxRequest
  {
    RoundedRequestFits(d);
    PowToNext(d)
  }

  lemma RoundedRequestFits(d: int)
    requires 0 <= d <= MaxRequest
    ensures PowToNext(d) <= MaxRequest
  {
    Pow2Constants();
    Pow2IsPow2(30);
    if d > 0 {
      Pow2AtMost(PowToNext(d), MaxRequest);
    }
  }

  /** The constructor `SpectrumRingBuffer(t_size)`. */
  function New<T>(t: nat, zero: T): (rb: Ring<T>)
    requires t <= MaxRequest
    ensures Valid(rb)
    ensures t == 0 ==> rb.size == 0
    ensures t > 0 ==> IsPow2(rb.size) && rb.size / 2 < t <= rb.size
    ensures rb.writePtr == 0 && rb.count == 0 && !rb.ready
    ensures forall q :: 0 <= q < rb.size ==> rb.buf[q] == zero
  {
    var buf := ResizeSeq([], Pow2Next(t), zero);
    Ring(|buf|, MaskOf(|buf|), 0, 0, false, buf)
  }

  /**
   * `resize(t_size)`: a no-op when t equals the current size; otherwise the
   * buffer is rounded to a power of two and the accumulation count dropped,
   * while the write cursor and the drain gate are left as they were.
   */
  function Resize<T>(rb: Ring<T>, t: nat, zero: T): (r: Ring<T>)
    requires Valid(rb) && t <= MaxRequest
    ensures Valid(r)
    ensures rb.size == t ==> r == rb
    ensures rb.size != t ==>
      && (t == 0 ==> r.size == 0)
      && (t > 0 ==> IsPow2(r.size) && r.size / 2 < t <= r.size)
      && r.count == 0
      && r.writePtr == rb.writePtr
      && r.ready == rb.ready
      && forall q :: 0 <= q < r.size ==> r.buf[q] == (if q < rb.size then rb.buf[q] else zero)
  {
    if rb.size == t then rb
    else
      var buf := ResizeSeq(rb.buf, Pow2Next(t), zero);
      rb.(size := |buf|, mask := MaskOf(|buf|), count := 0, buf := buf)
  }

  /** `size()`: the length of the storage, a power of two or 0. */
  function Size<T>(rb: Ring<T>): (s: nat)
    ensures Valid(rb) ==> s == |rb.buf| && (s == 0 || IsPow2(s))
  {
    rb.size
  }

  /** `readyRead()`: the drain gate, true exactly when a full-size drain would succeed. */
  function ReadyRead<T>(rb: Ring<T>): (b: bool)
    ensures Valid(rb) ==> (b <==> ReadAll(rb, rb.buf).ok)
  {
    rb.ready
  }

  /** `readyWrite()`: true exactly when the buffer has storage, so that even an empty write succeeds. */
  function ReadyWrite<T>(rb: Ring<T>): (b: bool)
    ensures Valid(rb) ==> (b <==> Write(rb, []).ok)
  {
    rb.size != 0
  }

  /** `clear()`: cursors, count and gate are reset; contents are not zeroed. */
  function Clear<T>(rb: Ring<T>): (r: Ring<T>)
    requires Valid(rb)
    ensures Valid(r)
    ensures r.writePtr == 0 && r.count == 0 && !r.ready
    ensures r.size == rb.size && r.mask == rb.mask && r.buf == rb.buf
  {
    rb.(writePtr := 0, count := 0, ready := false)
  }

  // ---------------------------------------------------------------------------
  // Writing: `m_buffer[m_writePtr++ & m_mask] = src[i]` for i = 0 .. len-1
  // ---------------------------------------------------------------------------

  /** The buffer after storing src[0], src[1], ... at slots w, w+1, ... (mod |buf|), in that order. */
  function Scatter<T>(buf: seq<T>, w: nat, src: seq<T>): (r: seq<T>)
    requires |buf| > 0
    ensures |r| == |buf|
    decreases |src|
  {
    if |src| == 0 then buf
    else Scatter(buf, w, src[..|src| - 1])[Slot(w, |src| - 1, |buf|) := src[|src| - 1]]
  }

  /** Among the last |buf| samples every one survives in its slot: the last writer wins. */
  lemma {:induction false} ScatterLastWriterWins<T>(buf: seq<T>, w: nat, src: seq<T>)
    requires |buf| > 0
    ensures forall i :: 0 <= i < |src| && |src| - |buf| <= i ==>
      Scatter(buf, w, src)[Slot(w, i, |buf|)] == src[i]
    decreases |src|
  {
    if |src| > 0 {
      var n, last := |buf|, |src| - 1;
      ScatterLastWriterWins(buf, w, src[..last]);
      forall i | 0 <= i < last && |src| - n <= i
        ensures Slot(w, i, n) != Slot(w, last, n)
      {
        ModDistinct(w + i, w + last, n);
      }
    }
  }

  /** A slot that no sample lands in keeps its old value. */
  lemma {:induction false} ScatterUntouched<T>(buf: seq<T>, w: nat, src: seq<T>, q: nat)
    requires 0 <= q < |buf|
    requires forall i :: 0 <= i < |src| ==> Slot(w, i, |buf|) != q
    ensures Scatter(buf, w, src)[q] == buf[q]
    decreases |src|
  {
    if |src| > 0 {
      ScatterUntouched(buf, w, src[..|src| - 1], q);
    }
  }

  /** Two bursts land exactly where their concatenation does. */
  lemma {:induction false} ScatterAppend<T>(buf: seq<T>, w: nat, a: seq<T>, b: seq<T>)
    requires |buf| > 0
    ensures Scatter(Scatter(buf, w, a), (w + |a|) % |buf|, b) == Scatter(buf, w, a + b)
    decreases |b|
  {
    var n := |buf|;
    if |b| == 0 {
      assert a + b == a;
    } else {
      var b' := b[..|b| - 1];
      ScatterAppend(buf, w, a, b');
      assert (a + b)[..|a + b| - 1] == a + b';
      ModAddLeft(w + |a|, |b| - 1, n);
    }
  }

  /**
   * `write(pSrc, len)` and `write(vector)` (len = |src|). Writing nothing into
   * an empty buffer fails; every other write succeeds, advances the cursor
   * modulo size, adds len to the saturating count and re-evaluates the gate.
   * Writing samples into an empty buffer indexes an empty vector, and a
   * count that would pass 2^32 wraps in the source's 32-bit arithmetic;
   * both are excluded here.
   */
  function Write<T>(rb: Ring<T>, src: seq<T>): (w: Written<T>)
    requires Valid(rb)
    requires rb.size > 0 || |src| == 0
    requires rb.count + |src| < WordModulus
    ensures Valid(w.ring)
    ensures !w.ok <==> |src| == 0 && rb.size == 0
    ensures !w.ok ==> w.ring == rb
    ensures w.ok ==>
      && w.ring.size == rb.size && w.ring.mask == rb.mask
      && w.ring.writePtr == Slot(rb.writePtr, |src|, rb.size)
      && w.ring.count == Min(rb.count + |src|, rb.size)
      && (w.ring.ready <==> w.ring.count == rb.size)
    ensures w.ok ==> forall i :: 0 <= i < |src| && |src| - rb.size <= i ==>
      w.ring.buf[Slot(rb.writePtr, i, rb.size)] == src[i]
    ensures w.ok ==> forall q :: 0 <= q < rb.size && (forall i :: 0 <= i < |src| ==> Slot(rb.writePtr, i, rb.size) != q) ==>
      w.ring.buf[q] == rb.buf[q]
  {
    if |src| == 0 && rb.size == 0 then Written(false, rb)
    else
      ScatterLastWriterWins(rb.buf, rb.writePtr, src);
      forall q | 0 <= q < rb.size && (forall i :: 0 <= i < |src| ==> Slot(rb.writePtr, i, rb.size) != q)
        ensures Scatter(rb.buf, rb.writePtr, src)[q] == rb.buf[q]
      {
        ScatterUntouched(rb.buf, rb.writePtr, src, q);
      }
      Written(true, Stored(rb, src))
  }

  /** The state after a successful write. */
  function Stored<T>(rb: Ring<T>, src: seq<T>): Ring<T>
    requires Valid(rb) && rb.size > 0
  {
    var count := Min(rb.count + |src|, rb.size);
    rb.(writePtr := (rb.writePtr + |src|) % rb.size, count := count, ready := count == rb.size,
        buf := Scatter(rb.buf, rb.writePtr, src))
  }

  /**
   * `readAll(pDst, len)` and `readAll(vector)` (len = |dst|). Fails, changing
   * nothing, unless len equals the size and the gate is set; otherwise clears
   * the gate and copies the buffer starting at the write cursor: the oldest
   * of the most recent size samples first. The count is not touched.
   */
  function ReadAll<T>(rb: Ring<T>, dst: seq<T>): (d: Drained<T>)
    requires Valid(rb)
    ensures Valid(d.ring)
    ensures d.ok <==> |dst| == rb.size && rb.ready
    ensures !d.ok ==> d.ring == rb && d.dst == dst
    ensures d.ok ==> d.ring == rb.(ready := false)
    ensures d.ok ==> |d.dst| == rb.size
    ensures d.ok ==> forall i :: 0 <= i < rb.size ==> d.dst[i] == rb.buf[Slot(rb.writePtr, i, rb.size)]
  {
    if |dst| != rb.size || !rb.ready then Drained(false, rb, dst)
    else
      var out := seq(rb.size, i requires 0 <= i < rb.size => rb.buf[(rb.writePtr + i) % rb.size]);
      Drained(true, rb.(ready := false), out)
  }

  // ---------------------------------------------------------------------------
  // Properties over several operations
  // ---------------------------------------------------------------------------

  /** Resizing twice to the same request is the same as resizing once. */
  lemma ResizeIdempotent<T>(rb: Ring<T>, t: nat, zero: T)
    requires Valid(rb) && t <= MaxRequest
    ensures Resize(Resize(rb, t, zero), t, zero) == Resize(rb, t, zero)
  {
    var r1 := Resize(rb, t, zero);
    var r2 := Resize(r1, t, zero);
    if r1.size != t {
      assert r2.buf == r1.buf;
    }
  }

  /** Two consecutive writes leave the same state as one write of both bursts. */
  lemma WriteAppend<T>(rb: Ring<T>, a: seq<T>, b: seq<T>)
    requires Valid(rb) && rb.size > 0
    requires rb.count + |a| + |b| < WordModulus
    ensures Write(Write(rb, a).ring, b).ring == Write(rb, a + b).ring
  {
    var r1 := Stored(rb, a);
    assert Write(rb, a).ring == r1;
    assert Write(r1, b).ring == Stored(r1, b);
    StoredAppend(rb, a, b);
  }

  lemma StoredAppend<T>(rb: Ring<T>, a: seq<T>, b: seq<T>)
    requires Valid(rb) && rb.size > 0
    requires rb.count + |a| + |b| < WordModulus
    ensures Stored(Stored(rb, a), b) == Stored(rb, a + b)
  {
    var n := rb.size;
    var s1 := Stored(rb, a);
    var s2 := Stored(s1, b);
    var s3 := Stored(rb, a + b);
    ScatterAppend(rb.buf, rb.writePtr, a, b);
    assert s2.buf == s3.buf;
    assert |a + b| == |a| + |b|;
    ModAddLeft(rb.writePtr + |a|, |b|, n);
    assert s2.writePtr == ((rb.writePtr + |a|) % n + |b|) % n;
    assert s3.writePtr == (rb.writePtr + |a| + |b|) % n;
  }

  /** A sequence of `write` calls, as the receiver callback issues them. */
  function WriteAll<T>(rb: Ring<T>, chunks: seq<seq<T>>): (r: Ring<T>)
    requires Valid(rb) && rb.size > 0
    requires rb.count + |Flatten(chunks)| < WordModulus
    ensures Valid(r) && r.size == rb.size
    decreases |chunks|
  {
    if |chunks| == 0 then rb
    else
      FlattenCons(chunks);
      WriteAll(Write(rb, chunks[0]).ring, chunks[1..])
  }

  function Flatten<T>(chunks: seq<seq<T>>): seq<T>
    decreases |chunks|
  {
    if |chunks| == 0 then [] else chunks[0] + Flatten(chunks[1..])
  }

  lemma FlattenCons<T>(chunks: seq<seq<T>>)
    requires |chunks| > 0
    ensures |Flatten(chunks)| == |chunks[0]| + |Flatten(chunks[1..])|
  {
  }

  /** A non-empty run of writes has the effect of one write of everything written. */
  lemma {:induction false} WriteAllIsOneWrite<T>(rb: Ring<T>, chunks: seq<seq<T>>)
    requires Valid(rb) && rb.size > 0 && |chunks| > 0
    requires rb.count + |Flatten(chunks)| < WordModulus
    ensures WriteAll(rb, chunks) == Write(rb, Flatten(chunks)).ring
    decreases |chunks|
  {
    FlattenCons(chunks);
    var rb1 := Write(rb, chunks[0]).ring;
    if |chunks| == 1 {
      assert Flatten(chunks) == chunks[0] + [];
      assert chunks[0] + [] == chunks[0];
    } else {
      WriteAllIsOneWrite(rb1, chunks[1..]);
      WriteAppend(rb, chunks[0], Flatten(chunks[1..]));
    }
  }

  /**
   * The drain gate after a run of writes opens exactly when the samples
   * accumulated (from the count the run started with) reach the size.
   */
  lemma GateOpensWhenFull<T>(rb: Ring<T>, chunks: seq<seq<T>>)
    requires Valid(rb) && rb.size > 0 && |chunks| > 0
    requires rb.count + |Flatten(chunks)| < WordModulus
    ensures WriteAll(rb, chunks).ready <==> rb.count + |Flatten(chunks)| >= rb.size
    ensures WriteAll(rb, chunks).count == Min(rb.count + |Flatten(chunks)|, rb.size)
  {
    WriteAllIsOneWrite(rb, chunks);
  }

  /** After `clear()`, a drain becomes possible exactly once size samples have been written. */
  lemma ClearedGateOpensAtSize<T>(rb: Ring<T>, chunks: seq<seq<T>>)
    requires Valid(rb) && rb.size > 0 && |chunks| > 0
    requires |Flatten(chunks)| < WordModulus
    ensures WriteAll(Clear(rb), chunks).ready <==> |Flatten(chunks)| >= rb.size
  {
    GateOpensWhenFull(Clear(rb), chunks);
  }

  /**
   * Round trip: after a write of at least size samples, the gate is set and a
   * drain returns exactly the last size samples written, in the order written.
   */
  lemma {:induction false} WriteThenDrain<T>(rb: Ring<T>, src: seq<T>, dst: seq<T>)
    requires Valid(rb) && rb.size > 0
    requires |src| >= rb.size && rb.count + |src| < WordModulus
    requires |dst| == rb.size
    ensures var w := Write(rb, src).ring;
      && w.ready
      && ReadAll(w, dst).ok
      && ReadAll(w, dst).dst == src[|src| - rb.size..]
  {
    var n := rb.size;
    var w := Write(rb, src).ring;
    assert w.ready;
    var d := ReadAll(w, dst);
    forall i | 0 <= i < n
      ensures d.dst[i] == src[|src| - n + i]
    {
      var t := |src| - n + i;
      SlotAfterTurn(rb.writePtr, |src|, i, n);
      assert d.dst[i] == w.buf[Slot(w.writePtr, i, n)];
      assert w.buf[Slot(rb.writePtr, t, n)] == src[t];
    }
  }

  /** The round trip holds for any run of writes totalling at least size samples. */
  lemma {:induction false} WritesThenDrain<T>(rb: Ring<T>, chunks: seq<seq<T>>, dst: seq<T>)
    requires Valid(rb) && rb.size > 0 && |chunks| > 0
    requires |Flatten(chunks)| >= rb.size && rb.count + |Flatten(chunks)| < WordModulus
    requires |dst| == rb.size
    ensures ReadAll(WriteAll(rb, chunks), dst).ok
    ensures ReadAll(WriteAll(rb, chunks), dst).dst == Flatten(chunks)[|Flatten(chunks)| - rb.size..]
  {
    var all := Flatten(chunks);
    WriteAllIsOneWrite(rb, chunks);
    WriteThenDrain(rb, all, dst);
    assert WriteAll(rb, chunks) == Write(rb, all).ring;
  }

  /**
   * `readAll` clears the gate but not the count, so once the count has
   * saturated, any later successful write, even an empty one, re-arms the gate.
   */
  lemma SaturatedWriteRearms<T>(rb: Ring<T>, dst: seq<T>, src: seq<T>)
    requires Valid(rb) && rb.size > 0 && rb.count == rb.size
    requires ReadAll(rb, dst).ok
    requires rb.size + |src| < WordModulus
    ensures !ReadAll(rb, dst).ring.ready
    ensures ReadAll(rb, dst).ring.count == rb.size
    ensures Write(ReadAll(rb, dst).ring, src).ring.ready
  {
  }
}

=== FILE: window.dfy ===
/**
 * `class Window`: a table of window coefficients, multiplied into a block
 * element by element.
 *
 * The coefficients are the four-term Blackman-Harris values
 * `0.3635819 - 0.4891775 cos(2 pi i/(n-1)) + 0.1365995 cos(4 pi i/(n-1)) - 0.0106411 cos(6 pi i/(n-1))`;
 * being floating-point cosines they are a parameter `coeff`, where
 * coeff(i, n) stands for entry i of a table of n.
 */
module Window {
  import opened Common

  type CoeffOf = (nat, nat) -> Real

  /** `m_vector`. */
  datatype Window = Window(table: seq<Real>)

  /** Outcome of `setParam`: its result and the new state. */
  datatype Configured = Configured(ok: bool, window: Window)

  /** `Window() = default`: an empty table. */
  const Unconfigured: Window := Window([])

  /**
   * `setParam(t_size)`: 0 is refused and the table kept; any other size
   * gives a table of exactly that many entries, entry i being coeff(i, n).
   */
  function SetParam(w: Window, n: nat, coeff: CoeffOf): (r: Configured)
    ensures r.ok <==> n != 0
    ensures n == 0 ==> r.window == w
    ensures n != 0 ==> |r.window.table| == n
    ensures n != 0 ==> forall i :: 0 <= i < n ==> r.window.table[i] == coeff(i, n)
  {
    if n == 0 then Configured(false, w)
    else Configured(true, Window(seq(n, i requires 0 <= i < n => coeff(i, n))))
  }

  /**
   * `setParam` loop for loop: `m_vector.resize(t_size)` keeps the old
   * prefix, and the loop then overwrites every entry.
   */
  method SetParamInPlace(w: Window, n: nat, coeff: CoeffOf) returns (ok: bool, w': Window)
    ensures Configured(ok, w') == SetParam(w, n, coeff)
  {
    if n == 0 {
      return false, w;
    }
    var table := ResizeSeq(w.table, n, 0.0);
    var i := 0;
    while i < |table|
      invariant 0 <= i <= n && |table| == n
      invariant forall q :: 0 <= q < i ==> table[q] == coeff(q, n)
    {
      table := table[i := coeff(i, n)];
      i := i + 1;
    }
    ok, w' := true, Window(table);
  }

  /** Whatever was configured before, a successful `setParam(n)` leaves the same table. */
  lemma SetParamForgetsOldTable(w1: Window, w2: Window, n: nat, coeff: CoeffOf)
    requires n != 0
    ensures SetParam(w1, n, coeff) == SetParam(w2, n, coeff)
  {
  }

  /**
   * `process(srcDst)`: a block whose length differs from the table's
   * (including any non-empty block before `setParam`) is left as it is;
   * otherwise both parts of every sample are multiplied by its coefficient.
   */
  function Process(w: Window, block: seq<Complex>): (r: seq<Complex>)
    ensures |r| == |block|
    ensures |block| != |w.table| ==> r == block
    ensures |block| == |w.table| ==> forall i :: 0 <= i < |block| ==> r[i] == Scale(block[i], w.table[i])
  {
    if |block| != |w.table| then block
    else seq(|block|, i requires 0 <= i < |block| => Scale(block[i], w.table[i]))
  }

  /** `process` loop for loop: `re *= c[i]; im *= c[i]` for each i in turn. */
  method ProcessInPlace(w: Window, block: seq<Complex>) returns (out: seq<Complex>)
    ensures out == Process(w, block)
  {
    out := block;
    if |block| != |w.table| {
      return;
    }
    var i := 0;
    while i < |out|
      invariant 0 <= i <= |block| && |out| == |block|
      invariant forall q :: 0 <= q < i ==> out[q] == Scale(block[q], w.table[q])
      invariant forall q :: i <= q < |block| ==> out[q] == block[q]
    {
      out := out[i := Complex(out[i].re * w.table[i], out[i].im * w.table[i])];
      i := i + 1;
    }
  }

  /** Before any `setParam`, every non-empty block passes through unchanged. */
  lemma UnconfiguredIsNoOp(block: seq<Complex>)
    requires |block| > 0
    ensures Process(Unconfigured, block) == block
  {
  }
}
